=== FILE: README.md ===
# Adafruit IO REST client, modelled in Dafny

This project models the core of `AdafruitIOHttpClient`, a C# client for the
Adafruit IO REST API, version 2. The model covers:

- **Requests.** Each operation builds one request: a `GET` or `POST` to
  `https://io.adafruit.com/api/v2/{username}/feeds/{feed}/data...`. A query
  pair is added only for each optional argument that is given, and a body only
  for the create operations.
- **Query values.**
  - `IncludeData` flag sets are written as `value;lat;...`.
  - `AggregateField` members are written by their wire names.
  - `Resolution` members are written as their number of minutes.
- **Bodies.** The JSON documents written for a `Datum<T>`, and the reading of
  `DataPoint<T>` documents back.
- **Error handling.**
  - Failures of the HTTP stack (`InvalidOperationException`,
    `HttpRequestException`, `TaskCanceledException`) are wrapped in a
    `ConnectionException`.
  - An unsuccessful response is classified into `InvalidApiKeyException`,
    `UsernameNotFoundException`, `GeneralNotFoundException` or
    `HttpResultException`.
- **`TimeInterval`.** The parameter type and its arithmetic.

The transport is a parameter `send: Request -> Response`: the model says what
goes out and what is made of whatever comes back. The following parts of the
JSON library enter as parameters, with the laws the proofs rely on stated as
predicates:

- its text layer (`render`, `parseText`, law `Json.TextCodec`);
- its value serializer (`ser`, `deser`, law `Json.ValueCodec`);
- its date format, which writes a `DateTime` as a JSON string and reads it back
  (`Json.DateFormat`, law `Json.DateCodec`);
- its conversion of a `value` member into `T` (`DataPoints.ValueReader`): a
  present member is converted by `read`, and a missing one gives `absent`,
  which stands for `default(T)`;
- the text its reader gives a floating-point number token read into a `string`
  (`floatText`).

A C# `string` reference is `Primitives.NullableString`, where `None` is `null`.
It is the value type of every string-valued datum and point.

Modules follow the source's files:

| module | file |
|---|---|
| `Wrappers` | `Option` and `Result` |
| `Primitives` | `Int32`, `Single` and nullable `string` |
| `Text` | joining, splitting, ASCII case folding, decimals |
| `IncludeData` | `IncludeData.cs` |
| `AggregateField` | `AggregateField.cs` |
| `Resolutions` | `Resolution.cs` |
| `TimeIntervals` | `TimeInterval.cs` |
| `Json` | JSON trees |
| `Datums` | `Datum.cs` |
| `DataPoints` | `DataPoint.cs` |
| `Errors` | the exception classes and the response classifier |
| `Queries` | query strings |
| `Client` | `AdafruitIOHttpClient.cs` |

Each operation's result is tied to one reference predicate, `Client.Outcome`. It states, for any transport and any reply:

- a thrown transport failure comes back as a `ConnectionException` holding it;
- an unsuccessful status comes back as the classifier's exception, unwrapped;
- a successful reply is read from its body, or the read fails with a JSON
  failure.

## Model

| member | source | states |
|---|---|---|
| Text.DecimalRoundTrip | AdafruitIOApi/Http/AdafruitIOHttpClient.cs:151-152 | the decimal text of an integer, as `int.ToString()` writes it, reads back as that integer |
| Text.DecimalInjective | AdafruitIOApi/Http/AdafruitIOHttpClient.cs:192-195 | different integers are written as different query values |
| IncludeData.AccumulatedIsTerminated | AdafruitIOApi/Http/Parameters/IncludeData.cs:38-50 | the string accumulated by the six flag tests is each selected token followed by `;`, tokens in declaration order |
| IncludeData.GetDataTextIsJoin | AdafruitIOApi/Http/Parameters/IncludeData.cs:35-53 | the include text is the selected tokens joined by `;`, so no trailing separator |
| IncludeData.ValueSelectedFirst | AdafruitIOApi/Http/Parameters/IncludeData.cs:39-40 | `value` (flag 0) is selected for every mask and comes first |
| IncludeData.SelectedOrdered | AdafruitIOApi/Http/Parameters/IncludeData.cs:39-50 | the tokens appear strictly in the order value, lat, lon, ele, id, created_at |
| IncludeData.SelectedHas | AdafruitIOApi/Http/Parameters/IncludeData.cs:39-50 | a token is selected exactly when `HasFlag` holds for its flag |
| IncludeData.TokenPresence | AdafruitIOApi/Http/Parameters/IncludeData.cs:12-22 | each token is present exactly when its bit (1, 2, 4, 8, 16) is set; `value` always |
| IncludeData.SelectedCount | AdafruitIOApi/Http/Parameters/IncludeData.cs:39-50 | one token for `value` plus one per set named bit |
| IncludeData.GetDataTextShape | AdafruitIOApi/Http/Parameters/IncludeData.cs:52 | the text is never empty, starts with `value`, and has one `;` per set named bit |
| IncludeData.TokensFree | AdafruitIOApi/Http/Parameters/IncludeData.cs:39-50 | no token holds the separator |
| IncludeData.TextLacks | AdafruitIOApi/Http/Parameters/IncludeData.cs:35-53 | a character that is neither `;` nor in any token, such as `&` or `=`, never appears in the text |
| IncludeData.TextUndelimited | AdafruitIOApi/Http/Parameters/IncludeData.cs:35-53 | the text holds neither `&` nor `=`, so it passes through a query unsplit |
| IncludeData.OtherBitsIgnored | AdafruitIOApi/Http/Parameters/IncludeData.cs:39-50 | bits outside the five named flags do not change the text |
| IncludeData.GetDataText | AdafruitIOApi/Http/Parameters/IncludeData.cs:35-53 | the include text always starts with `value` and never ends in the `;` separator |
| IncludeData.ParseGetDataText | AdafruitIOApi/Http/Parameters/IncludeData.cs:35-53 | splitting the text at `;` and mapping tokens back to flags gives exactly the named bits of the mask |
| IncludeData.SameTextIffSameNamedBits | AdafruitIOApi/Http/Parameters/IncludeData.cs:35-53 | two masks give the same text if and only if their named bits agree |
| AggregateField.GetDataText | AdafruitIOApi/Http/Parameters/AggregateField.cs:28-37 | the wire name is empty exactly for an undeclared value, and a declared member's name reads back as that member |
| AggregateField.ParseGetDataText | AdafruitIOApi/Http/Parameters/AggregateField.cs:28-37 | a name that reads back as a member is that member's wire name, so the reading inverts `GetDataText` in both directions |
| AggregateField.GetDataTextInjective | AdafruitIOApi/Http/Parameters/AggregateField.cs:28-37 | distinct declared members have distinct wire names |
| Resolutions.MinutesRoundTrip | AdafruitIOApi/Http/Parameters/Resolution.cs:9-17 | every resolution is a positive divisor of 960 minutes, and its minute value identifies it |
| TimeIntervals.AddSpan | AdafruitIOApi/Http/Parameters/TimeInterval.cs:36 | `DateTime + TimeSpan` succeeds exactly when the sum is a valid `DateTime`, and then differs from the start by the span |
| TimeIntervals.SubtractSpan | AdafruitIOApi/Http/Parameters/TimeInterval.cs:44 | `DateTime - TimeSpan` succeeds exactly when the difference is a valid `DateTime`, and then lies the span before |
| TimeIntervals.FromStartEnd | AdafruitIOApi/Http/Parameters/TimeInterval.cs:24-28 | the interval keeps both ends as given, unordered |
| TimeIntervals.FromStartSpan | AdafruitIOApi/Http/Parameters/TimeInterval.cs:36 | succeeds exactly when the end is a valid time; then it starts at the start and its `GetTimeSpan` is the span |
| TimeIntervals.FromSpanEnd | AdafruitIOApi/Http/Parameters/TimeInterval.cs:44 | succeeds exactly when the start is a valid time; then it ends at the end and its `GetTimeSpan` is the span |
| TimeIntervals.GetTimeSpan | AdafruitIOApi/Http/Parameters/TimeInterval.cs:60-63 | the start plus the span is the end, negative for a reversed interval |
| TimeIntervals.Contains | AdafruitIOApi/Http/Parameters/TimeInterval.cs:51-54 | only an interval with a non-negative span contains anything, and an interval of one instant contains just that instant |
| TimeIntervals.ContainsIffWithinSpan | AdafruitIOApi/Http/Parameters/TimeInterval.cs:51-54 | a moment is contained exactly when its offset from the start lies between 0 and the span |
| TimeIntervals.Endpoints | AdafruitIOApi/Http/Parameters/TimeInterval.cs:51-54 | an ordered interval contains both ends, a reversed one contains nothing |
| TimeIntervals.ConstructionsAgree | AdafruitIOApi/Http/Parameters/TimeInterval.cs:36-44 | start-plus-span and span-plus-end build the same interval as start-and-end whenever they describe it |
| Datums.Make | AdafruitIOApi/Http/Parameters/Datum.cs:81-88 | the five-argument constructor stores each argument in its field |
| Datums.FromValue | AdafruitIOApi/Http/Parameters/Datum.cs:38 | a bare value leaves every metadata field null |
| Datums.WithTime | AdafruitIOApi/Http/Parameters/Datum.cs:45 | value and creation time only |
| Datums.WithPosition | AdafruitIOApi/Http/Parameters/Datum.cs:53 | latitude and longitude only; elevation and time null |
| Datums.WithLocation | AdafruitIOApi/Http/Parameters/Datum.cs:62 | position and elevation; time null |
| Datums.WithPositionAndTime | AdafruitIOApi/Http/Parameters/Datum.cs:71 | position and time; elevation null |
| Datums.StringDocument | AdafruitIOApi/Http/Parameters/Datum.cs:97-98 | the string document leads with a non-null value as a JSON string, leaves a null value out, and holds no null and no raw member |
| Datums.StringDocumentField | AdafruitIOApi/Http/Parameters/Datum.cs:97-98 | the lookup of any key finds the value or a set metadata field as JSON, and nothing for a null field or any other key |
| Datums.StringDocumentRawFree | AdafruitIOApi/Http/Parameters/Datum.cs:97-98 | the string document is pure JSON, with no embedded serializer output |
| Datums.AsStringDatum | AdafruitIOApi/Http/Parameters/Datum.cs:100 | the re-built datum holds the serialized value and the same four metadata fields |
| Datums.Document | AdafruitIOApi/Http/Parameters/Datum.cs:99-100 | for a non-string value the document's value member is a JSON string holding the value's serialization, never a bare value |
| Datums.GetJson | AdafruitIOApi/Http/Parameters/Datum.cs:95-101 | the non-string branch equals the string branch applied to the re-built `Datum<string>` |
| Datums.PlainDocument | AdafruitIOApi/Http/AdafruitIOHttpClient.cs:88 | `SerializeObject(datum)` writes all five members in declaration order: the value as its own JSON, each float as a JSON number, the time as a string in the date format, and `null` for each null field |
| DataPoints.PlainDocumentReadsBack | AdafruitIOApi/Http/AdafruitIOHttpClient.cs:88 | reading the create body by the point-member rules gives the value's serialized text and all four metadata fields back, nulls included |
| DataPoints.Make | AdafruitIOApi/Http/Results/DataPoint.cs:51-60 | the first five arguments go to the `Datum` constructor, the rest to the point's own fields |
| DataPoints.ConvertTo | AdafruitIOApi/Http/Results/DataPoint.cs:68-73 | a null value throws a `NullReferenceException`; otherwise it succeeds exactly when the value deserializes, and then the new value is the deserialized one and all nine metadata fields agree |
| DataPoints.ConvertFromNonString | AdafruitIOApi/Http/Results/DataPoint.cs:74-75 | a non-string point always fails to convert |
| DataPoints.StringValue | AdafruitIOApi/Http/Results/DataPoint.cs:89 | a `string` value member is read exactly when it is a scalar: a string as itself, `null` as a null reference, an integer as decimal text that parses back to it, a boolean as the JSON literal `true` or `false`, a float as `floatText` writes it; an array or object fails |
| DataPoints.ReadDatum | AdafruitIOApi/Http/Parameters/Datum.cs:13-31 | a missing `value` gives `default(T)` and a present one its conversion, which must succeed; a missing metadata member gives null |
| DataPoints.ReadPoint | AdafruitIOApi/Http/Results/DataPoint.cs:14-60 | only an object reads; its datum members are read as a datum, and a missing point member gives its parameter's default: null, zero or tick zero |
| DataPoints.Deserialize | AdafruitIOApi/Http/Results/DataPoint.cs:89 | the document `null` gives a null point, and any other document that reads as a point gives that point |
| DataPoints.GenerateFromJsonString | AdafruitIOApi/Http/Results/DataPoint.cs:88-89 | succeeds exactly when the text parses and is `null` or reads as a `DataPoint<string>`; a null point exactly for `null` |
| DataPoints.GenerateFromJson | AdafruitIOApi/Http/Results/DataPoint.cs:90-95 | a null point throws a `NullReferenceException` and a null value an `ArgumentNullException`; otherwise it agrees with `ConvertTo`, and on success every metadata field is carried over |
| DataPoints.MissingValueIsDefault | AdafruitIOApi/Http/Parameters/Datum.cs:14-15 | a point document without a `value` member reads with `default(T)` as its value, as the JSON library passes the default for a missing constructor argument, and its other members are read as usual |
| DataPoints.ReadWrittenString | AdafruitIOApi/Http/Parameters/Datum.cs:98 | a string value written by the null-ignoring serializer, or left out because it is null, reads back as itself |
| DataPoints.ReadWrittenSingle | AdafruitIOApi/Http/Parameters/Datum.cs:98 | an optional float written or left out by the null-ignoring serializer reads back as itself |
| DataPoints.ReadWrittenDate | AdafruitIOApi/Http/Parameters/Datum.cs:98 | an optional time written or left out reads back as itself, given a date format that reads its own output |
| DataPoints.ReadStringDatum | AdafruitIOApi/Http/Results/DataPoint.cs:89 | the datum members of the string document read back as the datum |
| DataPoints.StringDocumentLacks | AdafruitIOApi/Http/Parameters/Datum.cs:97-98 | the string document has no `id`, `feed_id`, `feed_key`, `created_epoch` or `expiration` member |
| DataPoints.ReadStringDocument | AdafruitIOApi/Http/Results/DataPoint.cs:86-89 | reading the string document gives the datum back, with the platform-assigned fields at their defaults |
| DataPoints.GetJsonRoundTrip | AdafruitIOApi/Http/Results/DataPoint.cs:90-95 | the double encoding round-trips: `GenerateFromJson` of `GetJson` gives back the value and the metadata |
| DataPoints.GetJsonStringRoundTrip | AdafruitIOApi/Http/Results/DataPoint.cs:88-89 | the string branches round-trip, a null value included, with no value serializer involved |
| Errors.Wrap | AdafruitIOApi/Http/AdafruitIOHttpClient.cs:95-99 | the three transport failure classes, subclasses included, become a `ConnectionException` holding them; any exception outside those hierarchies is rethrown unchanged |
| Errors.WrapIdempotent | AdafruitIOApi/Http/AdafruitIOHttpClient.cs:95-99 | wrapping twice is wrapping once, and the wrapped failure is the inner exception |
| Errors.Decide | AdafruitIOApi/Http/AdafruitIOHttpClient.cs:341-360 | each verdict in terms of status and body: accepted iff 2xx; key rejected iff 401 with the invalid-key body; user unknown iff 404 with the unknown-username body; feed not found iff any other 404; otherwise failed |
| Errors.ResultMessage | AdafruitIOApi/Http/AdafruitIOHttpClient.cs:345-346 | the `HttpResultException` message names the status and quotes the body |
| Errors.NotFoundMessage | AdafruitIOApi/Http/Exceptions/GeneralNotFoundException.cs:56-58 | the not-found message names both the feed key and the username |
| Errors.Classify | AdafruitIOApi/Http/AdafruitIOHttpClient.cs:339-362 | nothing is thrown iff the status is a success; otherwise the thrown class matches the verdict, both ways |
| Errors.ClassifyMessages | AdafruitIOApi/Http/Exceptions/GeneralNotFoundException.cs:56-58 | the key and username errors carry the username as message; the feed error names feed and username; every error quotes the body in its `HttpResultException` |
| Errors.ClassifiedPassThrough | AdafruitIOApi/Http/AdafruitIOHttpClient.cs:92-99 | a classified error is not caught by the transport filter and reaches the caller unchanged |
| Queries.Entry | AdafruitIOApi/Http/AdafruitIOHttpClient.cs:147-148 | an absent argument contributes no pair, a present one exactly its pair |
| Queries.EntriesKeys | AdafruitIOApi/Http/AdafruitIOHttpClient.cs:146-156 | the keys of the query are those of the given arguments, in assignment order |
| Queries.EntriesLookup | AdafruitIOApi/Http/AdafruitIOHttpClient.cs:146-156 | with distinct keys, each key looks up exactly its own argument's value, absent or present |
| Queries.EntriesNone | AdafruitIOApi/Http/AdafruitIOHttpClient.cs:157 | no argument given means an empty collection |
| Queries.QueryString | AdafruitIOApi/Http/AdafruitIOHttpClient.cs:157 | the query string is empty exactly when there is no pair, and is otherwise `?` followed by the rendered pairs |
| Queries.ParsePairTexts | AdafruitIOApi/Http/AdafruitIOHttpClient.cs:157 | `key=value` texts read back as the pairs when no key or value holds `&` or `=` |
| Queries.UriRoundTrip | AdafruitIOApi/Http/AdafruitIOHttpClient.cs:157 | a path plus query string splits back into the path and the pairs; there is a `?` iff there is a pair |
| Client.FeedPath | AdafruitIOApi/Http/AdafruitIOHttpClient.cs:87 | every URI starts with the API root and names the username and the feed |
| Client.DataQuery | AdafruitIOApi/Http/AdafruitIOHttpClient.cs:146-157 | the keys are exactly those of the given filters, in the order start_time, end_time, limit, include, before; each key looks up its filter's text |
| Client.DataQueryValues | AdafruitIOApi/Http/AdafruitIOHttpClient.cs:147-156 | times as the time formatter writes them, the limit in decimal, the mask as its include text, `before` only when not null or empty |
| Client.ChartQuery | AdafruitIOApi/Http/AdafruitIOHttpClient.cs:187-200 | the keys are exactly those of the given arguments, in the order start_time, end_time, resolution, hours, field, raw; each key looks up its argument's text |
| Client.ChartQueryValues | AdafruitIOApi/Http/AdafruitIOHttpClient.cs:188-199 | the resolution as its minutes, the hours in decimal, the field by wire name, the flag as `true` or `false` |
| Client.ChartValuesReadBack | AdafruitIOApi/Http/AdafruitIOHttpClient.cs:192-199 | the resolution, a declared field and the flag each read back from the query |
| Client.SpecialQuery | AdafruitIOApi/Http/AdafruitIOHttpClient.cs:251-254 | the only possible key is `include`, present exactly when the mask is given |
| Client.IncludeReadsBack | AdafruitIOApi/Http/AdafruitIOHttpClient.cs:153-154 | the `include` value of either query reads back as the named bits of the mask |
| Client.CreateRequest | AdafruitIOApi/Http/AdafruitIOHttpClient.cs:84-89 | a POST to the feed's data path with the plainly serialized datum as body |
| Client.DataRequest | AdafruitIOApi/Http/AdafruitIOHttpClient.cs:161-165 | a GET of the feed's data path followed by the query string, without body |
| Client.ChartRequest | AdafruitIOApi/Http/AdafruitIOHttpClient.cs:204-208 | a GET of `.../data/chart` followed by the chart query string |
| Client.SpecialRequest | AdafruitIOApi/Http/AdafruitIOHttpClient.cs:258-262 | a GET of `.../data/{special}/` followed by the query string |
| Client.PlainDocuments | AdafruitIOApi/Http/AdafruitIOHttpClient.cs:225 | the list is serialized element by element, in list order |
| Client.BatchRequest | AdafruitIOApi/Http/AdafruitIOHttpClient.cs:225-234 | a POST to the single-datum endpoint whose body is the list's JSON text serialized once more |
| Client.NullOr | AdafruitIOApi/Http/AdafruitIOHttpClient.cs:93 | a `null` body gives a null result, anything else is read by the reader |
| Client.PointReader | AdafruitIOApi/Http/AdafruitIOHttpClient.cs:93 | a body reads as a point exactly when it is `null` or reads by the point reader, and then gives that point |
| Client.ListReader | AdafruitIOApi/Http/AdafruitIOHttpClient.cs:169 | `null` and only `null` gives a null list; otherwise only an array reads, element by element, each element a point or a null point |
| Client.ReadAll | AdafruitIOApi/Http/AdafruitIOHttpClient.cs:169 | a list reads exactly when every element reads, element by element and in order |
| Client.Exchange | AdafruitIOApi/Http/AdafruitIOHttpClient.cs:91-92 | the body is handed on exactly when the transport answered with a success status |
| Client.ReadBody | AdafruitIOApi/Http/AdafruitIOHttpClient.cs:93 | the body reads exactly when it parses and the document reads; otherwise a JSON failure |
| Client.Outcome | AdafruitIOApi/Http/AdafruitIOHttpClient.cs:82-99 | success only after a success status; a `ConnectionException` only for a thrown exception; a JSON failure after a reply only for a success status |
| Client.Call | AdafruitIOApi/Http/AdafruitIOHttpClient.cs:82-99 | the try block with both catch clauses yields the reference outcome for every transport and reply |
| Client.CreateData | AdafruitIOApi/Http/AdafruitIOHttpClient.cs:80-100 | the reference outcome of the create request, read as one point |
| Client.CreateValue | AdafruitIOApi/Http/AdafruitIOHttpClient.cs:65-68 | the same, for a datum with every metadata field null |
| Client.CreateString | AdafruitIOApi/Http/AdafruitIOHttpClient.cs:50-53 | the same, for a string value written as a JSON string, or as `null` |
| Client.GetData | AdafruitIOApi/Http/AdafruitIOHttpClient.cs:138-176 | the reference outcome of the data request, read as a list of points |
| Client.GetDataString | AdafruitIOApi/Http/AdafruitIOHttpClient.cs:115-123 | the same, with string values |
| Client.ChartFeedData | AdafruitIOApi/Http/AdafruitIOHttpClient.cs:178-221 | the reference outcome of the chart request |
| Client.CreateMultipleDataRecords | AdafruitIOApi/Http/AdafruitIOHttpClient.cs:223-246 | the reference outcome of the batch request, read as a list of points |
| Client.GetSpecialData | AdafruitIOApi/Http/AdafruitIOHttpClient.cs:248-278 | the reference outcome of the special request; both type branches read the point the same way |
| Client.GetPreviousData | AdafruitIOApi/Http/AdafruitIOHttpClient.cs:281-284 | the special request with segment `previous` |
| Client.GetNextData | AdafruitIOApi/Http/AdafruitIOHttpClient.cs:286-289 | the special request with segment `next` |
| Client.GetLastData | AdafruitIOApi/Http/AdafruitIOHttpClient.cs:291-294 | the special request with segment `last` |
| Client.GetFirstData | AdafruitIOApi/Http/AdafruitIOHttpClient.cs:296-299 | the special request with segment `first` |
| Client.GetDataPoint | AdafruitIOApi/Http/AdafruitIOHttpClient.cs:301-304 | the special request with the point's id as segment |
| Client.GetMostRecentDataPoint | AdafruitIOApi/Http/AdafruitIOHttpClient.cs:313-316 | a failed list fetch fails the same way; a null list gives a `NullReferenceException`, an empty one an `ArgumentOutOfRangeException`, otherwise the first element, which may be a null point |
| Client.NoFilterNoQuery | AdafruitIOApi/Http/AdafruitIOHttpClient.cs:157 | with no filter there are no pairs and the URI ends in `/data`, with no `?` |
| Client.LatestOnlyEntries | AdafruitIOApi/Http/AdafruitIOHttpClient.cs:315 | the most-recent query has the single pair `limit=1` |
| Client.LatestOnlyQuery | AdafruitIOApi/Http/AdafruitIOHttpClient.cs:315 | the most-recent request URI is the data path plus `?limit=1` |
| Client.NoQuestionMark | AdafruitIOApi/Http/AdafruitIOHttpClient.cs:164 | the data path holds no `?` when the username and feed hold none |
| Client.DataUriRoundTrip | AdafruitIOApi/Http/AdafruitIOHttpClient.cs:157-164 | the data URI splits back into the feed's data path and the query |
| Client.ChartUriRoundTrip | AdafruitIOApi/Http/AdafruitIOHttpClient.cs:204-208 | the chart URI splits back at its `?` into `.../data/chart` and the chart query |
| Client.SpecialQueryDelimited | AdafruitIOApi/Http/AdafruitIOHttpClient.cs:251-254 | no key or value of the special query holds `&` or `=`, whatever the mask |
| Client.SpecialUriRoundTrip | AdafruitIOApi/Http/AdafruitIOHttpClient.cs:258-262 | the special URI splits back at its `?` into `.../data/{special}/` and the query, for every mask |
| Client.TransportFailures | AdafruitIOApi/Http/AdafruitIOHttpClient.cs:95-99 | a thrown transport failure reaches the caller as a `ConnectionException` holding it; any other exception unchanged |
| Client.RejectedReplies | AdafruitIOApi/Http/AdafruitIOHttpClient.cs:92 | an unsuccessful reply always fails, never as a connection error and never as a JSON failure |
| Client.MostRecentOfEmpty | AdafruitIOApi/Http/AdafruitIOHttpClient.cs:315 | an empty list makes the most-recent call fail with an `ArgumentOutOfRangeException` |
| Client.MostRecentOfList | AdafruitIOApi/Http/AdafruitIOHttpClient.cs:315 | a non-empty list gives its first element, a point or a null point |
| Client.MostRecentNullElement | AdafruitIOApi/Http/AdafruitIOHttpClient.cs:315 | a list whose only element is `null` gives a null point, not an exception |
| Client.BatchBodyIsString | AdafruitIOApi/Http/AdafruitIOHttpClient.cs:233 | the batch body parses as one JSON string holding the array's text, not as an array |
| Client.BareValueDocument | AdafruitIOApi/Http/AdafruitIOHttpClient.cs:65-68 | a bare value is sent with all four metadata members written as `null` |

## Behaviour worth noting

- **401 and 404 classification.** The classifier keeps the kinds separate:
  - a 401 with the invalid-key body is an `InvalidApiKeyException`;
  - a 404 with the unknown-username body is a `UsernameNotFoundException`;
  - any other 404 is a `GeneralNotFoundException`.

  A 401 with any other body is a plain `HttpResultException`, as is every
  other unsuccessful status.
- **Create bodies.** `CreateDataAsync` posts `JsonConvert.SerializeObject(datum)`:
  - all five members are written, nulls included;
  - the value is written as its own JSON, not double-encoded.

  `Datum.GetJson`, which does the double encoding, is modelled on its own and
  is not used by any request.
- **Batch bodies.** `CreateMultipleDataRecordsAsync` posts the serialized list
  serialized a second time, so the body is a JSON string holding the array's
  text.
- **Key order.** Each operation writes its own keys in assignment order:
  - `GetDataAsync`: start_time, end_time, limit, include, before;
  - `ChartFeedDataAsync`: start_time, end_time, resolution, hours, field, raw;
  - `GetSpecialDataAsync`: include.

## Left out

- **Networking.** The network, `async`, `HttpClient` and the request headers are left out. The `X-AIO-Key` and `Accept` headers set in the constructor are not part of `Request`.
- **Constructor null check.** The `ArgumentNullException` for a null account is left out. Null `feed` and `id` arguments are left out too. Otherwise C# null references are modelled where the code meets them: optional members, string values, response documents, list elements and lists.
- **Time text.** `DateTime.ToString("s")` is the parameter `timeText`, and the JSON library's date format is the parameter `dates`. Neither format is modelled.
- Client.FeedPath: every request URI goes through `new Uri(...)`, which the model treats as the plain concatenated text. Its escaping of characters such as spaces and its removal of `.` and `..` segments are not modelled. Nor is the `UriFormatException` it throws for a malformed string: that exception is raised inside the `try` and rethrown unwrapped, so it surfaces as itself. Its class is among those `Errors.Other` stands for.
- **Culture.** `int.ToString()` and `DateTime` formatting follow the current culture. `Text.DecimalText` writes the invariant form: ASCII digits and `-`.
- **Percent-encoding.** `NameValueCollection.ToString()` percent-encodes keys and values. The model's `Render` writes them as they are, so `UriRoundTrip` assumes no key or value holds `&` or `=`.
- **Case folding.** `StringComparison.OrdinalIgnoreCase` is modelled as case folding of the ASCII letters only. The two bodies compared against are ASCII, but the server's reply need not be: a reply holding non-ASCII letters that C#'s ordinal case-insensitive comparison folds can be judged differently by the model.
- **Status names.** `HttpStatusCode.ToString()` in the `HttpResultException` message is the parameter `statusName`.
- **Floats.** Floating-point values (`float?` lat, lon, ele) are 32-bit patterns that are only copied. Their arithmetic and text form are not modelled.
- **JSON library internals.** The JSON text grammar and Newtonsoft's type coercions are parameters: `render`, `parseText`, `ser`, `deser`, `dates` and the `ValueReader`. A `DataPoint` metadata member of the wrong JSON shape fails the whole read, where Newtonsoft might coerce it. For example, a number in quotes read into `feed_id` fails. A JSON `null` for a member whose type is a .NET value type, such as `feed_id` or `expiration`, is treated as a read failure. The value serializer `ser` is total, so the exceptions `SerializeObject` can throw, such as a `JsonSerializationException` for a self-referencing object, are not modelled. In `CreateDataAsync` such an exception would be raised inside the `try` and rethrown unwrapped; in `CreateMultipleDataRecordsAsync` it would escape before the `try`.
- Json.TextCodec: the law says `parseText` inverts `render` on every tree without raw text. For floats this assumes Newtonsoft writes every `float` so that it reads back to the same bit pattern, NaN payloads included. It also assumes the library's `DateParseHandling` does not turn a string that looks like a date into a `DateTime` when reading it back.
- DataPoints.StringValue: the JSON reader gives a number token read into a `string` as its raw text, so `1.50` or `1e2` keep their spelling. The model's JSON tree keeps only the number, so it gives the canonical decimal of an integer and `floatText` of a float. A reply that spells a number non-canonically reads to a different string in the model.
- Datums.GetJson: `DataPoint<T>` inherits `GetJson` without overriding it. Called on a `DataPoint<string>`, the string branch serializes `this`, so the point's own members (`id`, `feed_id` and the rest) are written as well as the datum's. Called on a `DataPoint<T>` of another type, the rebuilt `Datum<string>` drops them. The model covers `GetJson` of a plain `Datum<T>` only. The client itself never calls `GetJson`.
- **`ChartData`.** The shape of `ChartData` is not part of this model. Its reading is the parameter `readChart`.
- **Unused exception classes.** `BadRequestException`, `ForbiddenException` and the other exception classes the client never throws are left out.
- **Unused exception factories.** The `Generate...FromUsername` factories of `InvalidApiKeyException` and `UsernameNotFoundException` are never called by the client and are left out.
- **Undeclared resolutions.** `Resolution` values outside the nine declared members cannot be built. The C# enum admits them.

=== FILE: aggregate_field.dfy ===
/** The `AggregateField` enum of the chart endpoint and its wire text. */
module AggregateField {
  import opened Wrappers

  /** The enum's underlying `int`: any 32-bit value can be cast to the enum. */
  newtype Field = x: int | -0x8000_0000 <= x < 0x8000_0000

  const Avg: Field := 0
  const Sum: Field := 1
  const Val: Field := 2
  const Min: Field := 3
  const Max: Field := 4
  const ValCount: Field := 5

  /** One of the six declared members. */
  predicate IsNamed(f: Field)
  {
    0 <= f <= 5
  }

  /** `AggregateFieldExtensions.GetDataText`: the member's wire name, or the empty
      string for an undeclared value. */
  function GetDataText(f: Field): (t: string)
    ensures t == "" <==> !IsNamed(f)
    ensures IsNamed(f) ==> Parse(t) == Some(f)
  {
    if f == Avg then "avg"
    else if f == Sum then "sum"
    else if f == Val then "val"
    else if f == Min then "min"
    else if f == Max then "max"
    else if f == ValCount then "val_count"
    else ""
  }

  /** The platform's reading of a `field` value. */
  function Parse(text: string): Option<Field>
  {
    if text == "avg" then Some(Avg)
    else if text == "sum" then Some(Sum)
    else if text == "val" then Some(Val)
    else if text == "min" then Some(Min)
    else if text == "max" then Some(Max)
    else if text == "val_count" then Some(ValCount)
    else None
  }

  /** Every name that reads back as a member is that member's wire name; the
      other direction is part of `GetDataText`'s contract. */
  lemma ParseGetDataText(f: Field, text: string)
    ensures Parse(text) == Some(f) ==> IsNamed(f) && GetDataText(f) == text
  {
  }

  /** Distinct declared members have distinct wire names. */
  lemma GetDataTextInjective(f: Field, g: Field)
    requires IsNamed(f) && IsNamed(g) && GetDataText(f) == GetDataText(g)
    ensures f == g
  {
    ParseGetDataText(f, "");
    ParseGetDataText(g, "");
  }
}

=== FILE: client.dfy ===
/** `AdafruitIOHttpClient`: the requests each operation sends and how the reply is
    turned into a result or an exception. The transport is a parameter: the
    model says what goes out and what is made of whatever comes back. */
module Client {
  import opened Wrappers
  import opened Primitives
  import opened TimeIntervals
  import opened Text
  import opened Json
  import opened Queries
  import IncludeData
  import AggregateField
  import opened Resolutions
  import opened Datums
  import opened DataPoints
  import opened Errors

  /** `AdafruitIOAccount`: the key travels in a default header, not in a URI. */
  datatype Account = Account(username: string, key: string)

  const ApiRoot: string := "https://io.adafruit.com/api/v2/"

  datatype Verb = Get | Post

  /** An `HttpRequestMessage`: method, absolute URI and optional JSON content. */
  datatype Request = Request(verb: Verb, uri: string, content: Option<string>)

  /** What the HTTP stack made of a request: an exception, or a status and body. */
  datatype Response = Threw(failure: Exception) | Responded(status: int, body: string)

  /** The outside world of a client: the account, the transport, the status-code
      names of `HttpStatusCode.ToString()`, and the JSON library's text layer,
      date format and text of a floating-point number read into a `string`. */
  datatype Env = Env(
    account: Account,
    send: Request -> Response,
    statusName: int -> string,
    render: Json -> string,
    parseText: string -> Option<Json>,
    dates: DateFormat,
    floatText: Single -> string)

  /** `.../{username}/feeds/{feed}/data`, the base of every request. */
  function FeedPath(account: Account, feed: string): (p: string)
    ensures |p| >= |ApiRoot| && p[..|ApiRoot|] == ApiRoot
    ensures IsSubstring(account.username, p) && IsSubstring(feed, p)
  {
    var p := ApiRoot + account.username + "/feeds/" + feed + "/data";
    assert p == ApiRoot + account.username + ("/feeds/" + feed + "/data");
    InMiddle(ApiRoot, account.username, "/feeds/" + feed + "/data");
    assert p == (ApiRoot + account.username + "/feeds/") + feed + "/data";
    InMiddle(ApiRoot + account.username + "/feeds/", feed, "/data");
    p
  }

  // The query of `GetDataAsync`.

  /** The optional filters of `GetDataAsync`. */
  datatype DataFilter = DataFilter(
    startTime: Option<DateTime>,
    endTime: Option<DateTime>,
    limit: Option<Int32>,
    includes: Option<IncludeData.Mask>,
    before: Option<string>)

  const NoFilter: DataFilter := DataFilter(None, None, None, None, None)

  const DataKeys: seq<string> := ["start_time", "end_time", "limit", "include", "before"]

  lemma DataKeysDistinct()
    ensures Distinct(DataKeys)
  {
  }

  /** `string.IsNullOrEmpty` is false. */
  predicate Given(s: Option<string>)
  {
    s.Some? && |s.value| > 0
  }

  function TimeValue(t: Option<DateTime>, timeText: DateTime -> string): Option<string>
  {
    if t.Some? then Some(timeText(t.value)) else None
  }

  function IntValue(n: Option<Int32>): Option<string>
  {
    if n.Some? then Some(DecimalText(n.value)) else None
  }

  function IncludeValue(includes: Option<IncludeData.Mask>): Option<string>
  {
    if includes.Some? then Some(IncludeData.GetDataText(includes.value)) else None
  }

  /** The optional values of the data query, in `DataKeys` order. */
  function DataValues(f: DataFilter, timeText: DateTime -> string): seq<Option<string>>
  {
    [TimeValue(f.startTime, timeText), TimeValue(f.endTime, timeText), IntValue(f.limit),
     IncludeValue(f.includes), if Given(f.before) then f.before else None]
  }

  /** The query `GetDataAsync` builds; `timeText` is `DateTime.ToString("s")`.
      Each key is there exactly when its filter is, in the fixed order
      `start_time, end_time, limit, include, before`, with the value that filter
      renders to. */
  function DataQuery(f: DataFilter, timeText: DateTime -> string): (q: Query)
    ensures KeysOf(q) == Selected(DataKeys, [f.startTime.Some?, f.endTime.Some?, f.limit.Some?,
                                             f.includes.Some?, Given(f.before)])
    ensures forall i :: 0 <= i < |DataKeys| ==> Lookup(q, DataKeys[i]) == DataValues(f, timeText)[i]
  {
    var values := DataValues(f, timeText);
    DataKeysDistinct();
    EntriesKeys(DataKeys, values);
    assert IsSet(values) == [f.startTime.Some?, f.endTime.Some?, f.limit.Some?, f.includes.Some?, Given(f.before)];
    forall i | 0 <= i < |DataKeys| ensures Lookup(Entries(DataKeys, values), DataKeys[i]) == values[i] {
      EntriesLookup(DataKeys, values, i);
    }
    Entries(DataKeys, values)
  }

  /** Key by key: the times as `timeText` writes them, the limit in decimal, the
      include mask as its token list, and `before` only when it is not empty. */
  lemma DataQueryValues(f: DataFilter, timeText: DateTime -> string)
    ensures var q := DataQuery(f, timeText);
      && Lookup(q, "start_time") == TimeValue(f.startTime, timeText)
      && Lookup(q, "end_time") == TimeValue(f.endTime, timeText)
      && Lookup(q, "limit") == IntValue(f.limit)
      && Lookup(q, "include") == IncludeValue(f.includes)
      && (Lookup(q, "before").Some? <==> Given(f.before))
      && (Given(f.before) ==> Lookup(q, "before") == f.before)
  {
    var q := DataQuery(f, timeText);
    assert Lookup(q, DataKeys[0]) == DataValues(f, timeText)[0];
    assert Lookup(q, DataKeys[1]) == DataValues(f, timeText)[1];
    assert Lookup(q, DataKeys[2]) == DataValues(f, timeText)[2];
    assert Lookup(q, DataKeys[3]) == DataValues(f, timeText)[3];
    assert Lookup(q, DataKeys[4]) == DataValues(f, timeText)[4];
  }

  // The query of `ChartFeedDataAsync`.

  /** The optional arguments of `ChartFeedDataAsync`. */
  datatype ChartFilter = ChartFilter(
    startTime: Option<DateTime>,
    endTime: Option<DateTime>,
    resolution: Option<Resolution>,
    hours: Option<Int32>,
    field: Option<AggregateField.Field>,
    raw: Option<bool>)

  const ChartKeys: seq<string> := ["start_time", "end_time", "resolution", "hours", "field", "raw"]

  lemma ChartKeysDistinct()
    ensures Distinct(ChartKeys)
  {
  }

  /** `bool` as the client writes it. */
  function BoolText(b: bool): string
  {
    if b then "true" else "false"
  }

  function ChartValues(f: ChartFilter, timeText: DateTime -> string): seq<Option<string>>
  {
    [TimeValue(f.startTime, timeText), TimeValue(f.endTime, timeText),
     if f.resolution.Some? then Some(DecimalText(Minutes(f.resolution.value))) else None,
     IntValue(f.hours),
     if f.field.Some? then Some(AggregateField.GetDataText(f.field.value)) else None,
     if f.raw.Some? then Some(BoolText(f.raw.value)) else None]
  }

  /** The query `ChartFeedDataAsync` builds: each key exactly when its argument is
      given, in the order `start_time, end_time, resolution, hours, field, raw`,
      with the value that argument renders to. */
  function ChartQuery(f: ChartFilter, timeText: DateTime -> string): (q: Query)
    ensures KeysOf(q) == Selected(ChartKeys, [f.startTime.Some?, f.endTime.Some?, f.resolution.Some?,
                                              f.hours.Some?, f.field.Some?, f.raw.Some?])
    ensures forall i :: 0 <= i < |ChartKeys| ==> Lookup(q, ChartKeys[i]) == ChartValues(f, timeText)[i]
  {
    var values := ChartValues(f, timeText);
    ChartKeysDistinct();
    EntriesKeys(ChartKeys, values);
    assert IsSet(values) == [f.startTime.Some?, f.endTime.Some?, f.resolution.Some?,
                             f.hours.Some?, f.field.Some?, f.raw.Some?];
    forall i | 0 <= i < |ChartKeys| ensures Lookup(Entries(ChartKeys, values), ChartKeys[i]) == values[i] {
      EntriesLookup(ChartKeys, values, i);
    }
    Entries(ChartKeys, values)
  }

  /** Key by key: the times as `timeText` writes them, the resolution as its
      number of minutes, the hours in decimal, the field by its wire name and the
      flag as exactly `true` or `false`. */
  lemma ChartQueryValues(f: ChartFilter, timeText: DateTime -> string)
    ensures var q := ChartQuery(f, timeText);
      && Lookup(q, "start_time") == TimeValue(f.startTime, timeText)
      && Lookup(q, "end_time") == TimeValue(f.endTime, timeText)
      && (Lookup(q, "resolution").Some? <==> f.resolution.Some?)
      && (f.resolution.Some? ==> Lookup(q, "resolution") == Some(DecimalText(Minutes(f.resolution.value))))
      && Lookup(q, "hours") == IntValue(f.hours)
      && (Lookup(q, "field").Some? <==> f.field.Some?)
      && (f.field.Some? ==> Lookup(q, "field") == Some(AggregateField.GetDataText(f.field.value)))
      && (Lookup(q, "raw").Some? <==> f.raw.Some?)
      && (f.raw.Some? ==> Lookup(q, "raw") == Some(if f.raw.value then "true" else "false"))
  {
    var q := ChartQuery(f, timeText);
    assert Lookup(q, ChartKeys[0]) == ChartValues(f, timeText)[0];
    assert Lookup(q, ChartKeys[1]) == ChartValues(f, timeText)[1];
    assert Lookup(q, ChartKeys[2]) == ChartValues(f, timeText)[2];
    assert Lookup(q, ChartKeys[3]) == ChartValues(f, timeText)[3];
    assert Lookup(q, ChartKeys[4]) == ChartValues(f, timeText)[4];
    assert Lookup(q, ChartKeys[5]) == ChartValues(f, timeText)[5];
  }

  /** The chart query's values read back into the arguments: the resolution from
      its minutes, a named field from its wire name, the flag from its text. */
  lemma ChartValuesReadBack(f: ChartFilter, timeText: DateTime -> string)
    ensures f.resolution.Some? ==>
      var text := Lookup(ChartQuery(f, timeText), "resolution");
      text.Some? && ParseDecimal(text.value).Some? && FromMinutes(ParseDecimal(text.value).value) == f.resolution
    ensures f.field.Some? && AggregateField.IsNamed(f.field.value) ==>
      var text := Lookup(ChartQuery(f, timeText), "field");
      text.Some? && AggregateField.Parse(text.value) == f.field
    ensures f.raw.Some? ==> (Lookup(ChartQuery(f, timeText), "raw") == Some("true") <==> f.raw.value)
  {
    ChartQueryValues(f, timeText);
    if f.resolution.Some? {
      DecimalRoundTrip(Minutes(f.resolution.value));
      MinutesRoundTrip(f.resolution.value, Minutes(f.resolution.value));
    }
    if f.field.Some? && AggregateField.IsNamed(f.field.value) {
      AggregateField.ParseGetDataText(f.field.value, AggregateField.GetDataText(f.field.value));
    }
  }

  // The query of `GetSpecialDataAsync`.

  /** The query of `GetSpecialDataAsync`: at most the `include` key. */
  function SpecialQuery(includes: Option<IncludeData.Mask>): (q: Query)
    ensures KeysOf(q) == (if includes.Some? then ["include"] else [])
    ensures Lookup(q, "include") == IncludeValue(includes)
  {
    Entry("include", IncludeValue(includes))
  }

  /** The `include` value of either query reads back as the named bits of the mask. */
  lemma IncludeReadsBack(includes: IncludeData.Mask, f: DataFilter, timeText: DateTime -> string)
    requires f.includes == Some(includes)
    ensures var t := Lookup(SpecialQuery(Some(includes)), "include");
      t.Some? && IncludeData.ParseDataText(t.value) == Some(includes & IncludeData.Named)
    ensures var t := Lookup(DataQuery(f, timeText), "include");
      t.Some? && IncludeData.ParseDataText(t.value) == Some(includes & IncludeData.Named)
  {
    DataQueryValues(f, timeText);
    IncludeData.ParseGetDataText(includes);
  }

  // The requests.

  /** `CreateDataAsync(feed, datum)`: a POST of the datum serialized as it stands,
      every member present and nulls written out. */
  function CreateRequest<T>(account: Account, feed: string, datum: Datum<T>, ser: T -> string,
                            dates: DateFormat, render: Json -> string): (r: Request)
    ensures r.verb == Post && r.uri == FeedPath(account, feed)
    ensures r.content == Some(render(PlainDocument(datum, ser, dates)))
  {
    Request(Post, FeedPath(account, feed), Some(render(PlainDocument(datum, ser, dates))))
  }

  /** `GetDataAsync`: a GET of the feed's data with the filters as the query. */
  function DataRequest(account: Account, feed: string, f: DataFilter, timeText: DateTime -> string): (r: Request)
    ensures r.verb == Get && r.content.None?
    ensures r.uri == FeedPath(account, feed) + QueryString(DataQuery(f, timeText))
  {
    Request(Get, FeedPath(account, feed) + QueryString(DataQuery(f, timeText)), None)
  }

  /** `ChartFeedDataAsync`: a GET of `.../data/chart` with the chart query. */
  function ChartRequest(account: Account, feed: string, f: ChartFilter, timeText: DateTime -> string): (r: Request)
    ensures r.verb == Get && r.content.None?
    ensures r.uri == FeedPath(account, feed) + "/chart" + QueryString(ChartQuery(f, timeText))
  {
    Request(Get, FeedPath(account, feed) + "/chart" + QueryString(ChartQuery(f, timeText)), None)
  }

  /** `GetSpecialDataAsync`: a GET of `.../data/{special}/`, then the query. */
  function SpecialRequest(account: Account, feed: string, special: string,
                          includes: Option<IncludeData.Mask>): (r: Request)
    ensures r.verb == Get && r.content.None?
    ensures r.uri == FeedPath(account, feed) + "/" + special + "/" + QueryString(SpecialQuery(includes))
  {
    Request(Get, FeedPath(account, feed) + "/" + special + "/" + QueryString(SpecialQuery(includes)), None)
  }

  /** The documents of a list of datums, serialized one by one in list order. */
  function PlainDocuments<T>(data: seq<Datum<T>>, ser: T -> string, dates: DateFormat): (r: seq<Json>)
    ensures |r| == |data| && forall i :: 0 <= i < |data| ==> r[i] == PlainDocument(data[i], ser, dates)
  {
    seq(|data|, i requires 0 <= i < |data| => PlainDocument(data[i], ser, dates))
  }

  /** `CreateMultipleDataRecordsAsync`: a POST to the same endpoint as a single
      datum, whose content is the serialized list serialized once more, so the
      body is a JSON string holding the array's text. */
  function BatchRequest<T>(account: Account, feed: string, data: seq<Datum<T>>, ser: T -> string,
                           dates: DateFormat, render: Json -> string): (r: Request)
    ensures r.verb == Post && r.uri == FeedPath(account, feed)
    ensures r.content == Some(render(JString(render(JArray(PlainDocuments(data, ser, dates))))))
  {
    var dataString := render(JArray(PlainDocuments(data, ser, dates)));
    Request(Post, FeedPath(account, feed), Some(render(JString(dataString))))
  }

  // Reading a response body.

  /** A reader that also accepts the JSON `null`, which the library turns into a
      null reference rather than an exception. */
  function NullOr<X>(j: Json, read: Json -> Option<X>): (r: Option<Option<X>>)
    ensures j.JNull? ==> r == Some(None)
    ensures !j.JNull? ==> (r.Some? <==> read(j).Some?)
    ensures !j.JNull? && r.Some? ==> r.value == read(j)
  {
    if j.JNull? then Some(None)
    else
      var x :- read(j);
      Some(Some(x))
  }

  /** Reads every element of an array, failing if any element fails. */
  function ReadAll<X>(items: seq<Json>, read: Json -> Option<X>): (r: Option<seq<X>>)
    ensures r.Some? <==> forall i :: 0 <= i < |items| ==> read(items[i]).Some?
    ensures r.Some? ==> |r.value| == |items| && forall i :: 0 <= i < |items| ==> read(items[i]) == Some(r.value[i])
    decreases |items|
  {
    if |items| == 0 then Some([])
    else
      match read(items[0])
      case None => None
      case Some(x) =>
        match ReadAll(items[1..], read)
        case None =>
          assert exists i :: 0 < i < |items| && read(items[i]).None? by {
            var k :| 0 <= k < |items[1..]| && read(items[1..][k]).None?;
            assert read(items[k + 1]).None?;
          }
          None
        case Some(rest) =>
          assert forall i :: 0 < i < |items| ==> read(items[i]) == Some(rest[i - 1]) by {
            forall i | 0 < i < |items| ensures read(items[i]) == Some(rest[i - 1]) {
              assert items[1..][i - 1] == items[i];
            }
          }
          Some([x] + rest)
  }

  /** `DeserializeObject<List<X>>`: a JSON array read element by element. */
  function ReadList<X>(j: Json, read: Json -> Option<X>): Option<seq<X>>
  {
    if j.JArray? then ReadAll(j.items, read) else None
  }

  /** `DeserializeObject<DataPoint<T>>` of a whole body: `null` is a null point. */
  function PointReader<T>(reader: ValueReader<T>, dates: DateFormat): (r: Json -> Option<Option<DataPoint<T>>>)
    ensures forall j: Json :: r(j).Some? <==> j.JNull? || ReadPoint(j, reader, dates).Some?
    ensures forall j: Json :: r(j).Some? && r(j).value.Some? ==> ReadPoint(j, reader, dates) == r(j).value
  {
    j => NullOr(j, k => ReadPoint(k, reader, dates))
  }

  /** One element of a list of points: `null` is a null point. */
  function ElementReader<T>(reader: ValueReader<T>, dates: DateFormat): Json -> Option<Option<DataPoint<T>>>
  {
    j => NullOr(j, k => ReadPoint(k, reader, dates))
  }

  /** `DeserializeObject<List<DataPoint<T>>>` of a whole body: `null` is a null
      list, and each element is read as a point or a null point. */
  function ListReader<T>(reader: ValueReader<T>, dates: DateFormat)
    : (r: Json -> Option<Option<seq<Option<DataPoint<T>>>>>)
    ensures forall j: Json :: r(j) == Some(None) <==> j.JNull?
    ensures forall j: Json :: r(j).Some? && r(j).value.Some? ==>
      j.JArray? && ReadAll(j.items, ElementReader(reader, dates)) == r(j).value
  {
    j => NullOr(j, k => ReadList(k, ElementReader(reader, dates)))
  }

  // The request pipeline shared by every operation.

  /** The reference outcome of a request method: a thrown transport failure comes
      out as a `ConnectionException` around it, any other thrown exception as it
      is; an unsuccessful status as the classifier's exception, unwrapped; a
      successful one as the body read by `read`, or a JSON failure. */
  predicate Outcome<X(==)>(env: Env, feed: string, req: Request, read: Json -> Option<X>,
                           r: Result<X, Exception>): (b: bool)
    ensures b && r.Success? ==> env.send(req).Responded? && IsSuccess(env.send(req).status)
    ensures b && r.Failure? && r.error.Connection? ==> env.send(req).Threw?
    ensures b && r == Failure(JsonFailure) && env.send(req).Responded? ==> IsSuccess(env.send(req).status)
  {
    match env.send(req)
    case Threw(e) =>
      r == Failure(if IsTransportFailure(e) then Connection(ConnectionMessage, e) else e)
    case Responded(status, body) =>
      if !IsSuccess(status) then
        r == Failure(Classify(status, body, env.account.username, feed, env.statusName).value)
      else if env.parseText(body).None? || read(env.parseText(body).value).None? then
        r == Failure(JsonFailure)
      else
        r == Success(read(env.parseText(body).value).value)
  }

  /** Sending and letting the classifier throw. */
  function Exchange(env: Env, feed: string, req: Request): (r: Result<string, Exception>)
    ensures r.Success? <==> env.send(req).Responded? && IsSuccess(env.send(req).status)
    ensures r.Success? ==> r.value == env.send(req).body
  {
    match env.send(req)
    case Threw(e) => Failure(e)
    case Responded(status, body) =>
      match Classify(status, body, env.account.username, feed, env.statusName)
      case Some(e) => Failure(e)
      case None => Success(body)
  }

  /** `JsonConvert.DeserializeObject` of a body. */
  function ReadBody<X>(body: string, parseText: string -> Option<Json>, read: Json -> Option<X>)
    : (r: Result<X, Exception>)
    ensures r.Success? <==> parseText(body).Some? && read(parseText(body).value).Some?
    ensures r.Failure? ==> r.error == JsonFailure
  {
    match parseText(body)
    case None => Failure(JsonFailure)
    case Some(j) =>
      match read(j)
      case None => Failure(JsonFailure)
      case Some(x) => Success(x)
  }

  /** The `try` block of a request method. */
  function TryBlock<X>(env: Env, feed: string, req: Request, read: Json -> Option<X>): Result<X, Exception>
  {
    var body :- Exchange(env, feed, req);
    ReadBody(body, env.parseText, read)
  }

  /** The `try` block with its two `catch` clauses. */
  function Call<X(==)>(env: Env, feed: string, req: Request, read: Json -> Option<X>): (r: Result<X, Exception>)
    ensures Outcome(env, feed, req, read, r)
  {
    match TryBlock(env, feed, req, read)
    case Success(x) => Success(x)
    case Failure(e) => Failure(Wrap(e))
  }

  // The operations.

  /** `CreateDataAsync<T>(feed, datum)`. */
  function CreateData<T(==)>(env: Env, feed: string, datum: Datum<T>, ser: T -> string,
                         reader: ValueReader<T>): (r: Result<Option<DataPoint<T>>, Exception>)
    ensures Outcome(env, feed, CreateRequest(env.account, feed, datum, ser, env.dates, env.render), PointReader(reader, env.dates), r)
  {
    Call(env, feed, CreateRequest(env.account, feed, datum, ser, env.dates, env.render), PointReader(reader, env.dates))
  }

  /** How the serializer writes a `string`: as a JSON string, and a null reference as `null`. */
  function StringText(render: Json -> string): NullableString -> string
  {
    (s: NullableString) => if s.None? then render(JNull) else render(JString(s.value))
  }

  /** `CreateDataAsync<T>(feed, data)`: a datum with every metadata field null. */
  function CreateValue<T(==)>(env: Env, feed: string, data: T, ser: T -> string,
                          reader: ValueReader<T>): (r: Result<Option<DataPoint<T>>, Exception>)
    ensures Outcome(env, feed, CreateRequest(env.account, feed, FromValue(data), ser, env.dates, env.render),
                    PointReader(reader, env.dates), r)
  {
    CreateData(env, feed, FromValue(data), ser, reader)
  }

  /** `CreateDataAsync(feed, string data)`. */
  function CreateString(env: Env, feed: string, data: NullableString)
    : (r: Result<Option<DataPoint<NullableString>>, Exception>)
    ensures Outcome(env, feed, CreateRequest(env.account, feed, FromValue(data), StringText(env.render), env.dates,
                                             env.render),
                    PointReader(StringReader(env.floatText), env.dates), r)
  {
    CreateValue(env, feed, data, StringText(env.render), StringReader(env.floatText))
  }

  /** `GetDataAsync<T>`. */
  function GetData<T(==)>(env: Env, feed: string, f: DataFilter, timeText: DateTime -> string,
                      reader: ValueReader<T>): (r: Result<Option<seq<Option<DataPoint<T>>>>, Exception>)
    ensures Outcome(env, feed, DataRequest(env.account, feed, f, timeText), ListReader(reader, env.dates), r)
  {
    Call(env, feed, DataRequest(env.account, feed, f, timeText), ListReader(reader, env.dates))
  }

  /** `GetDataAsync` for `T = string`. */
  function GetDataString(env: Env, feed: string, f: DataFilter, timeText: DateTime -> string)
    : (r: Result<Option<seq<Option<DataPoint<NullableString>>>>, Exception>)
    ensures Outcome(env, feed, DataRequest(env.account, feed, f, timeText), ListReader(StringReader(env.floatText), env.dates), r)
  {
    GetData(env, feed, f, timeText, StringReader(env.floatText))
  }

  /** `ChartFeedDataAsync`; `readChart` stands for the reading of `ChartData`. */
  function ChartFeedData<C(==)>(env: Env, feed: string, f: ChartFilter, timeText: DateTime -> string,
                            readChart: Json -> Option<C>): (r: Result<Option<C>, Exception>)
    ensures Outcome(env, feed, ChartRequest(env.account, feed, f, timeText), j => NullOr(j, readChart), r)
  {
    Call(env, feed, ChartRequest(env.account, feed, f, timeText), j => NullOr(j, readChart))
  }

  /** `CreateMultipleDataRecordsAsync<T>`. */
  function CreateMultipleDataRecords<T(==)>(env: Env, feed: string, data: seq<Datum<T>>, ser: T -> string,
                                        reader: ValueReader<T>)
    : (r: Result<Option<seq<Option<DataPoint<T>>>>, Exception>)
    ensures Outcome(env, feed, BatchRequest(env.account, feed, data, ser, env.dates, env.render), ListReader(reader, env.dates), r)
  {
    Call(env, feed, BatchRequest(env.account, feed, data, ser, env.dates, env.render), ListReader(reader, env.dates))
  }

  /** `GetSpecialDataAsync<T>`: both of its type branches read the point directly. */
  function GetSpecialData<T(==)>(env: Env, feed: string, special: string, includes: Option<IncludeData.Mask>,
                             reader: ValueReader<T>): (r: Result<Option<DataPoint<T>>, Exception>)
    ensures Outcome(env, feed, SpecialRequest(env.account, feed, special, includes), PointReader(reader, env.dates), r)
  {
    Call(env, feed, SpecialRequest(env.account, feed, special, includes), PointReader(reader, env.dates))
  }

  // `GetPreviousDataAsync`, `GetNextDataAsync`, `GetLastDataAsync` and
  // `GetFirstDataAsync`: `GetSpecialDataAsync` with a fixed segment each.

  function GetPreviousData<T(==)>(env: Env, feed: string, includes: Option<IncludeData.Mask>,
                              reader: ValueReader<T>): (r: Result<Option<DataPoint<T>>, Exception>)
    ensures Outcome(env, feed, SpecialRequest(env.account, feed, "previous", includes), PointReader(reader, env.dates), r)
  {
    GetSpecialData(env, feed, "previous", includes, reader)
  }

  function GetNextData<T(==)>(env: Env, feed: string, includes: Option<IncludeData.Mask>,
                          reader: ValueReader<T>): (r: Result<Option<DataPoint<T>>, Exception>)
    ensures Outcome(env, feed, SpecialRequest(env.account, feed, "next", includes), PointReader(reader, env.dates), r)
  {
    GetSpecialData(env, feed, "next", includes, reader)
  }

  function GetLastData<T(==)>(env: Env, feed: string, includes: Option<IncludeData.Mask>,
                          reader: ValueReader<T>): (r: Result<Option<DataPoint<T>>, Exception>)
    ensures Outcome(env, feed, SpecialRequest(env.account, feed, "last", includes), PointReader(reader, env.dates), r)
  {
    GetSpecialData(env, feed, "last", includes, reader)
  }

  function GetFirstData<T(==)>(env: Env, feed: string, includes: Option<IncludeData.Mask>,
                           reader: ValueReader<T>): (r: Result<Option<DataPoint<T>>, Exception>)
    ensures Outcome(env, feed, SpecialRequest(env.account, feed, "first", includes), PointReader(reader, env.dates), r)
  {
    GetSpecialData(env, feed, "first", includes, reader)
  }

  /** `GetDataPointAsync<T>`: the point's id takes the place of the special word. */
  function GetDataPoint<T(==)>(env: Env, feed: string, id: string, includes: Option<IncludeData.Mask>,
                           reader: ValueReader<T>): (r: Result<Option<DataPoint<T>>, Exception>)
    ensures Outcome(env, feed, SpecialRequest(env.account, feed, id, includes), PointReader(reader, env.dates), r)
  {
    GetSpecialData(env, feed, id, includes, reader)
  }

  /** The only filter `GetMostRecentDataPointAsync` passes. */
  const LatestOnly: DataFilter := DataFilter(None, None, Some(1), None, None)

  /** `DateTime.ToString("s")` is never called without a time filter. */
  function NoTimeText(t: DateTime): string
  {
    ""
  }

  /** `GetMostRecentDataPointAsync<T>`: element 0 of a one-item `GetDataAsync`,
      which may itself be a null point. The indexing happens outside any `try`,
      so its exception is not wrapped. */
  function GetMostRecentDataPoint<T(==)>(env: Env, feed: string, reader: ValueReader<T>)
    : (r: Result<Option<DataPoint<T>>, Exception>)
    ensures var list := GetData(env, feed, LatestOnly, NoTimeText, reader);
      && (list.Failure? ==> r == Failure(list.error))
      && (list.Success? && list.value.None? ==> r == Failure(NullReference))
      && (list.Success? && list.value.Some? && |list.value.value| == 0 ==> r == Failure(Exception.ArgumentOutOfRange))
      && (list.Success? && list.value.Some? && |list.value.value| > 0 ==> r == Success(list.value.value[0]))
  {
    var list :- GetData(env, feed, LatestOnly, NoTimeText, reader);
    if list.None? then Failure(NullReference)
    else if |list.value| == 0 then Failure(Exception.ArgumentOutOfRange)
    else Success(list.value[0])
  }

  // Properties of the requests and outcomes.

  /** With every filter absent there is no query at all: the URI ends in `/data`. */
  lemma NoFilterNoQuery(account: Account, feed: string, timeText: DateTime -> string)
    ensures DataQuery(NoFilter, timeText) == []
    ensures DataRequest(account, feed, NoFilter, timeText).uri == FeedPath(account, feed)
  {
    EntriesNone(DataKeys, DataValues(NoFilter, timeText));
  }

  lemma LatestOnlyEntries()
    ensures DataQuery(LatestOnly, NoTimeText) == [("limit", "1")]
  {
    var values := DataValues(LatestOnly, NoTimeText);
    assert DecimalText(1) == "1";
    assert values == [None, None, Some("1"), None, None];
    var v2 := values[2..];
    var k2 := DataKeys[2..];
    assert v2 == [Some("1"), None, None];
    assert k2 == ["limit", "include", "before"];
    EntriesNone(k2[1..], v2[1..]);
    assert Entries(k2, v2) == [("limit", "1")];
    assert Entries(DataKeys, values) == Entries(DataKeys[1..], values[1..]);
    assert DataKeys[1..][1..] == k2 && values[1..][1..] == v2;
  }

  /** `GetMostRecentDataPointAsync` asks for `limit=1` and nothing else. */
  lemma LatestOnlyQuery(account: Account, feed: string)
    ensures DataQuery(LatestOnly, NoTimeText) == [("limit", "1")]
    ensures DataRequest(account, feed, LatestOnly, NoTimeText).uri == FeedPath(account, feed) + "?limit=1"
  {
    LatestOnlyEntries();
    var text := "limit" + "=" + "1";
    assert text == "limit=1" by {
      assert |text| == 7;
      forall i | 0 <= i < 7 ensures text[i] == "limit=1"[i] {
      }
    }
    assert PairTexts([("limit", "1")]) == [text];
    assert Render([("limit", "1")]) == text;
  }

  lemma NoQuestionMark(account: Account, feed: string)
    requires '?' !in account.username && '?' !in feed
    ensures '?' !in FeedPath(account, feed)
  {
    var p := FeedPath(account, feed);
    assert p == ApiRoot + account.username + "/feeds/" + feed + "/data";
  }

  /** The URI of a data request splits back into the feed's path and the query,
      provided the names hold no `?` and no key or value holds `&` or `=`. */
  lemma DataUriRoundTrip(account: Account, feed: string, f: DataFilter, timeText: DateTime -> string)
    requires '?' !in account.username && '?' !in feed
    requires Delimited(DataQuery(f, timeText))
    ensures ParseUri(DataRequest(account, feed, f, timeText).uri) == (FeedPath(account, feed), Some(DataQuery(f, timeText)))
  {
    NoQuestionMark(account, feed);
    UriRoundTrip(FeedPath(account, feed), DataQuery(f, timeText));
  }

  /** The URI of a chart request splits back into `.../data/chart` and the chart
      query, under the same conditions as a data request. */
  lemma ChartUriRoundTrip(account: Account, feed: string, f: ChartFilter, timeText: DateTime -> string)
    requires '?' !in account.username && '?' !in feed
    requires Delimited(ChartQuery(f, timeText))
    ensures ParseUri(ChartRequest(account, feed, f, timeText).uri)
         == (FeedPath(account, feed) + "/chart", Some(ChartQuery(f, timeText)))
  {
    NoQuestionMark(account, feed);
    var path := FeedPath(account, feed) + "/chart";
    assert '?' !in path by {
      assert forall i :: 0 <= i < |path| ==> path[i] == (FeedPath(account, feed) + "/chart")[i];
    }
    UriRoundTrip(path, ChartQuery(f, timeText));
  }

  /** The include text holds neither `&` nor `=`, so a special query always
      splits back. */
  lemma SpecialQueryDelimited(includes: Option<IncludeData.Mask>)
    ensures Delimited(SpecialQuery(includes))
  {
    var value := IncludeValue(includes);
    if includes.Some? {
      IncludeData.TextUndelimited(includes.value);
    }
    EntryDelimited("include", value);
  }

  /** The URI of a special request splits back into `.../data/{special}/` and the
      query, for any mask, when the names and the segment hold no `?`. */
  lemma SpecialUriRoundTrip(account: Account, feed: string, special: string,
                            includes: Option<IncludeData.Mask>)
    requires '?' !in account.username && '?' !in feed && '?' !in special
    ensures ParseUri(SpecialRequest(account, feed, special, includes).uri)
         == (FeedPath(account, feed) + "/" + special + "/", Some(SpecialQuery(includes)))
  {
    NoQuestionMark(account, feed);
    var path := FeedPath(account, feed) + "/" + special + "/";
    assert '?' !in path by {
      assert forall i :: 0 <= i < |path| ==> path[i] in FeedPath(account, feed) || path[i] in special || path[i] == '/';
    }
    SpecialQueryDelimited(includes);
    UriRoundTrip(path, SpecialQuery(includes));
  }

  /** A transport failure reaches the caller as a `ConnectionException` holding
      it; anything else thrown by the transport reaches it unchanged. */
  lemma TransportFailures<X>(env: Env, feed: string, req: Request, read: Json -> Option<X>)
    requires env.send(req).Threw?
    ensures Call(env, feed, req, read).Failure?
    ensures IsTransportFailure(env.send(req).failure) ==>
      Call(env, feed, req, read).error == Connection(ConnectionMessage, env.send(req).failure)
    ensures !IsTransportFailure(env.send(req).failure) ==> Call(env, feed, req, read).error == env.send(req).failure
  {
  }

  /** An unsuccessful reply is never reported as a connection problem, and its
      body is never read. */
  lemma RejectedReplies<X>(env: Env, feed: string, req: Request, read: Json -> Option<X>)
    requires env.send(req).Responded? && !IsSuccess(env.send(req).status)
    ensures Call(env, feed, req, read).Failure?
    ensures !Call(env, feed, req, read).error.Connection?
    ensures Call(env, feed, req, read).error != JsonFailure
  {
  }

  /** An empty list from the server makes `GetMostRecentDataPointAsync` fail with
      the list indexer's `ArgumentOutOfRangeException`. */
  lemma MostRecentOfEmpty<T>(env: Env, feed: string, reader: ValueReader<T>, body: string)
    requires env.send(DataRequest(env.account, feed, LatestOnly, NoTimeText)) == Responded(200, body)
    requires env.parseText(body) == Some(JArray([]))
    ensures GetMostRecentDataPoint(env, feed, reader) == Failure(Exception.ArgumentOutOfRange)
  {
    assert ReadAll([], ElementReader(reader, env.dates)) == Some([]);
    assert ListReader(reader, env.dates)(JArray([])) == Some(Some([]));
  }

  /** A non-empty list gives its first element: a point, or a null point when the
      element is `null`. */
  lemma MostRecentOfList<T>(env: Env, feed: string, reader: ValueReader<T>, body: string,
                            items: seq<Json>, first: Option<DataPoint<T>>)
    requires env.send(DataRequest(env.account, feed, LatestOnly, NoTimeText)) == Responded(200, body)
    requires env.parseText(body) == Some(JArray(items))
    requires |items| > 0 && ElementReader(reader, env.dates)(items[0]) == Some(first)
    requires forall i :: 0 <= i < |items| ==> ElementReader(reader, env.dates)(items[i]).Some?
    ensures GetMostRecentDataPoint(env, feed, reader) == Success(first)
  {
    var all := ReadAll(items, ElementReader(reader, env.dates));
    assert all.Some? && all.value[0] == first;
    assert ListReader(reader, env.dates)(JArray(items)) == Some(all);
  }

  /** A list whose first element is `null` makes `GetMostRecentDataPointAsync`
      return a null point rather than throw. */
  lemma MostRecentNullElement<T>(env: Env, feed: string, reader: ValueReader<T>, body: string)
    requires env.send(DataRequest(env.account, feed, LatestOnly, NoTimeText)) == Responded(200, body)
    requires env.parseText(body) == Some(JArray([JNull]))
    ensures GetMostRecentDataPoint(env, feed, reader) == Success(None)
  {
    MostRecentOfList(env, feed, reader, body, [JNull], None);
  }

  /** The batch body is read by the JSON library as a single string — the text
      of the array of datums, in list order — rather than as an array. */
  lemma BatchBodyIsString<T>(account: Account, feed: string, data: seq<Datum<T>>, ser: T -> string,
                             dates: DateFormat, render: Json -> string, parseText: string -> Option<Json>)
    requires TextCodec(render, parseText)
    ensures var body := BatchRequest(account, feed, data, ser, dates, render).content.value;
      parseText(body) == Some(JString(render(JArray(PlainDocuments(data, ser, dates)))))
  {
    var inner := JString(render(JArray(PlainDocuments(data, ser, dates))));
    assert RawFree(inner);
  }

  /** A bare value is sent with every metadata member written as `null`. */
  lemma BareValueDocument<T>(account: Account, feed: string, data: T, ser: T -> string, dates: DateFormat,
                             render: Json -> string)
    ensures var doc := PlainDocument(FromValue(data), ser, dates);
      && CreateRequest(account, feed, FromValue(data), ser, dates, render).content == Some(render(doc))
      && doc.members[0].val == JRaw(ser(data))
      && doc.members[1].val == JNull && doc.members[2].val == JNull
      && doc.members[3].val == JNull && doc.members[4].val == JNull
  {
  }
}

=== FILE: data_point.dfy ===
/** `DataPoint<T>`: a datum as the platform stores and returns it, with the
    identity and bookkeeping metadata the platform assigns, and its decoding from
    a response. */
module DataPoints {
  import opened Wrappers
  import opened Primitives
  import opened Text
  import opened TimeIntervals
  import opened Json
  import opened Datums

  /** The datum fields come from the base class; `id` and `feedKey` are C# strings
      and may be null. */
  datatype DataPoint<T> = DataPoint(
    datum: Datum<T>,
    id: Option<string>,
    feedId: Int32,
    feedKey: Option<string>,
    createdEpoch: Int32,
    expiration: DateTime)

  /** Why a value could not be decoded, by the C# exception class. */
  datatype DecodeError =
      /** The JSON library rejected the text or a member (a `JsonException`). */
    | Malformed
      /** `ConvertTo` on a point whose value is not a string (a plain `Exception`). */
    | NotStringValued
      /** A `NullReferenceException`: a member of a null reference was used. */
    | NullDereference
      /** An `ArgumentNullException`: a null string given to `DeserializeObject`. */
    | NullText

  /** The ten-argument constructor: the first five go through the `Datum` one. */
  function Make<T>(value: T, lat: Option<Single>, lon: Option<Single>, ele: Option<Single>,
                   createdAt: Option<DateTime>, id: Option<string>, feedId: Int32,
                   feedKey: Option<string>, createdEpoch: Int32, expiration: DateTime): (p: DataPoint<T>)
    ensures p.datum == Datums.Make(value, lat, lon, ele, createdAt)
    ensures p.id == id && p.feedId == feedId && p.feedKey == feedKey
    ensures p.createdEpoch == createdEpoch && p.expiration == expiration
  {
    DataPoint(Datums.Make(value, lat, lon, ele, createdAt), id, feedId, feedKey, createdEpoch, expiration)
  }

  /** The nine metadata fields of two points agree; only the values may differ. */
  predicate SameMetadata<A, B>(p: DataPoint<A>, q: DataPoint<B>)
  {
    && p.datum.lat == q.datum.lat && p.datum.lon == q.datum.lon && p.datum.ele == q.datum.ele
    && p.datum.createdAt == q.datum.createdAt
    && p.id == q.id && p.feedId == q.feedId && p.feedKey == q.feedKey
    && p.createdEpoch == q.createdEpoch && p.expiration == q.expiration
  }

  /** `ConvertTo<U>` on a string-valued point: a null value throws on its
      `ToString()`; otherwise the value deserialized to `U`, all metadata carried
      over, or a failure when the value does not deserialize. */
  function ConvertTo<U>(p: DataPoint<NullableString>, deser: string -> Option<U>): (r: Result<DataPoint<U>, DecodeError>)
    ensures p.datum.value.None? ==> r == Failure(NullDereference)
    ensures p.datum.value.Some? ==> (r.Success? <==> deser(p.datum.value.value).Some?)
    ensures p.datum.value.Some? && r.Failure? ==> r.error == Malformed
    ensures r.Success? ==>
      p.datum.value.Some? && Some(r.value.datum.value) == deser(p.datum.value.value) && SameMetadata(p, r.value)
  {
    match p.datum.value
    case None => Failure(NullDereference)
    case Some(text) =>
      match deser(text)
      case None => Failure(Malformed)
      case Some(v) =>
        Success(Make(v, p.datum.lat, p.datum.lon, p.datum.ele, p.datum.createdAt,
                     p.id, p.feedId, p.feedKey, p.createdEpoch, p.expiration))
  }

  /** `ConvertTo<U>` on a point whose value is not a string always throws. */
  function ConvertFromNonString<T, U>(p: DataPoint<T>): (r: Result<DataPoint<U>, DecodeError>)
    ensures r == Failure(NotStringValued)
  {
    Failure(NotStringValued)
  }

  // Reading a `DataPoint<T>` out of a parsed document, member by member. The JSON
  // library builds the point through its one constructor: a missing member
  // passes the parameter's default, which is null for the optional and string
  // fields, zero for the integers and tick zero for `expiration`. A member of the
  // wrong shape makes the whole read fail.

  function ReadOptSingle(j: Option<Json>): Option<Option<Single>>
  {
    match j
    case None => Some(None)
    case Some(JNull) => Some(None)
    case Some(JSingle(f)) => Some(Some(f))
    case Some(_) => None
  }

  /** A `DateTime?` member: a JSON string in the date format, or null. */
  function ReadOptDate(j: Option<Json>, dates: DateFormat): Option<Option<DateTime>>
  {
    match j
    case None => Some(None)
    case Some(JNull) => Some(None)
    case Some(JString(s)) =>
      var t :- dates.read(s);
      Some(Some(t))
    case Some(_) => None
  }

  function ReadOptString(j: Option<Json>): Option<Option<string>>
  {
    match j
    case None => Some(None)
    case Some(JNull) => Some(None)
    case Some(JString(s)) => Some(Some(s))
    case Some(_) => None
  }

  function ReadInt32(j: Option<Json>): Option<Int32>
  {
    match j
    case None => Some(0)
    case Some(JInt(i)) => if -0x8000_0000 <= i < 0x8000_0000 then Some(i) else None
    case Some(_) => None
  }

  /** A `DateTime` member, which cannot be null. */
  function ReadDate(j: Option<Json>, dates: DateFormat): Option<DateTime>
  {
    match j
    case None => Some(0)
    case Some(JString(s)) => dates.read(s)
    case Some(_) => None
  }

  /** How the JSON library fills the `value` of a `DataPoint<T>`: `read` converts
      a present member (`None` when the conversion throws), and `absent` is
      `default(T)`, which the constructor receives when the member is missing. */
  datatype ValueReader<T> = ValueReader(read: Json -> Option<T>, absent: T)

  /** How the JSON library's reader turns a `value` member into a `string`: a
      string as itself, an integer in invariant decimal, a boolean as `true` or
      `false` (the JSON literal, not `bool.ToString()`), a floating-point number
      as `floatText` writes it, and `null` as a null reference. An array or an
      object is rejected. */
  function StringValue(j: Json, floatText: Single -> string): (r: Option<NullableString>)
    ensures r.Some? <==> !j.JArray? && !j.JObject? && !j.JRaw?
    ensures r == Some(None) <==> j.JNull?
    ensures j.JString? ==> r == Some(Some(j.s))
    ensures j.JInt? ==> r.Some? && r.value.Some? && ParseDecimal(r.value.value) == Some(j.i)
    ensures j.JBool? ==> r == Some(Some(if j.b then "true" else "false"))
    ensures j.JSingle? ==> r == Some(Some(floatText(j.f)))
  {
    match j
    case JNull => Some(None)
    case JString(s) => Some(Some(s))
    case JInt(i) =>
      DecimalRoundTrip(i);
      Some(Some(DecimalText(i)))
    case JBool(b) => Some(Some(if b then "true" else "false"))
    case JSingle(f) => Some(Some(floatText(f)))
    case _ => None
  }

  /** `T = string`, whose default is the null reference. */
  function StringReader(floatText: Single -> string): ValueReader<NullableString>
  {
    ValueReader(j => StringValue(j, floatText), None)
  }

  /** The `value` parameter: the default when the member is missing. */
  function ReadValue<T>(j: Option<Json>, reader: ValueReader<T>): Option<T>
  {
    if j.None? then Some(reader.absent) else reader.read(j.value)
  }

  /** The members inherited from `Datum<T>`. */
  function ReadDatum<T>(ms: seq<Member>, reader: ValueReader<T>, dates: DateFormat): (r: Option<Datum<T>>)
    ensures r.Some? && Get(ms, "value").None? ==> r.value.value == reader.absent
    ensures r.Some? && Get(ms, "value").Some? ==> reader.read(Get(ms, "value").value) == Some(r.value.value)
    ensures Get(ms, "value").Some? && reader.read(Get(ms, "value").value).None? ==> r.None?
    ensures r.Some? && Get(ms, "lat").None? ==> r.value.lat.None?
    ensures r.Some? && Get(ms, "lon").None? ==> r.value.lon.None?
    ensures r.Some? && Get(ms, "ele").None? ==> r.value.ele.None?
    ensures r.Some? && Get(ms, "created_at").None? ==> r.value.createdAt.None?
  {
    var value :- ReadValue(Get(ms, "value"), reader);
    var lat :- ReadOptSingle(Get(ms, "lat"));
    var lon :- ReadOptSingle(Get(ms, "lon"));
    var ele :- ReadOptSingle(Get(ms, "ele"));
    var createdAt :- ReadOptDate(Get(ms, "created_at"), dates);
    Some(Datums.Make(value, lat, lon, ele, createdAt))
  }

  /** The object-to-record half of `DeserializeObject<DataPoint<T>>`. */
  function ReadPoint<T>(j: Json, reader: ValueReader<T>, dates: DateFormat): (r: Option<DataPoint<T>>)
    ensures r.Some? ==> j.JObject? && ReadDatum(j.members, reader, dates) == Some(r.value.datum)
    ensures r.Some? && Get(j.members, "id").None? ==> r.value.id.None?
    ensures r.Some? && Get(j.members, "feed_id").None? ==> r.value.feedId == 0
    ensures r.Some? && Get(j.members, "feed_key").None? ==> r.value.feedKey.None?
    ensures r.Some? && Get(j.members, "created_epoch").None? ==> r.value.createdEpoch == 0
    ensures r.Some? && Get(j.members, "expiration").None? ==> r.value.expiration == 0
  {
    match j
    case JObject(ms) =>
      var datum :- ReadDatum(ms, reader, dates);
      var id :- ReadOptString(Get(ms, "id"));
      var feedId :- ReadInt32(Get(ms, "feed_id"));
      var feedKey :- ReadOptString(Get(ms, "feed_key"));
      var createdEpoch :- ReadInt32(Get(ms, "created_epoch"));
      var expiration :- ReadDate(Get(ms, "expiration"), dates);
      Some(DataPoint(datum, id, feedId, feedKey, createdEpoch, expiration))
    case _ => None
  }

  /** `DeserializeObject<DataPoint<string>>` on an already parsed document. */
  function ReadDataPoint(j: Json, dates: DateFormat, floatText: Single -> string): Option<DataPoint<NullableString>>
  {
    ReadPoint(j, StringReader(floatText), dates)
  }

  /** `JsonConvert.DeserializeObject<DataPoint<string>>(json)`: the document `null`
      gives a null reference. */
  function Deserialize(json: string, parseText: string -> Option<Json>, dates: DateFormat,
                       floatText: Single -> string)
    : (r: Result<Option<DataPoint<NullableString>>, DecodeError>)
    ensures r == Success(None) <==> parseText(json) == Some(JNull)
    ensures r.Success? && r.value.Some? ==>
      parseText(json).Some? && ReadDataPoint(parseText(json).value, dates, floatText) == r.value
    ensures parseText(json).Some? && !parseText(json).value.JNull? && ReadDataPoint(parseText(json).value, dates, floatText).Some?
      ==> r.Success?
  {
    match parseText(json)
    case None => Failure(Malformed)
    case Some(JNull) => Success(None)
    case Some(j) =>
      match ReadDataPoint(j, dates, floatText)
      case None => Failure(Malformed)
      case Some(p) => Success(Some(p))
  }

  /** `GenerateFromJson` for `T = string`: one plain deserialization, which gives
      a null point for the document `null`. */
  function GenerateFromJsonString(json: string, parseText: string -> Option<Json>, dates: DateFormat,
                                  floatText: Single -> string)
    : (r: Result<Option<DataPoint<NullableString>>, DecodeError>)
    ensures r.Success? <==>
      parseText(json).Some? && (parseText(json).value.JNull? || ReadDataPoint(parseText(json).value, dates, floatText).Some?)
    ensures r == Success(None) <==> parseText(json) == Some(JNull)
    ensures r.Failure? ==> r.error == Malformed
  {
    Deserialize(json, parseText, dates, floatText)
  }

  /** `GenerateFromJson` for any other `T`: reads a string-valued point, then
      deserializes its value and carries every metadata field over. A null point
      throws on `dat.Value`, a null value string in `DeserializeObject<T>`; for a
      non-null value it agrees with `ConvertTo`. */
  function GenerateFromJson<T>(json: string, parseText: string -> Option<Json>, dates: DateFormat,
                               floatText: Single -> string, deser: string -> Option<T>)
    : (r: Result<DataPoint<T>, DecodeError>)
    ensures r == (match Deserialize(json, parseText, dates, floatText)
                  case Failure(e) => Failure(e)
                  case Success(None) => Failure(NullDereference)
                  case Success(Some(p)) => if p.datum.value.None? then Failure(NullText) else ConvertTo(p, deser))
    ensures r.Success? ==>
      exists p: DataPoint<NullableString> :: Deserialize(json, parseText, dates, floatText) == Success(Some(p)) && SameMetadata(p, r.value)
        && p.datum.value.Some? && deser(p.datum.value.value) == Some(r.value.datum.value)
  {
    var dat :- Deserialize(json, parseText, dates, floatText);
    if dat.None? then Failure(NullDereference)
    else
      var p := dat.value;
      match p.datum.value
      case None => Failure(NullText)
      case Some(text) =>
        match deser(text)
        case None => Failure(Malformed)
        case Some(v) =>
          Success(Make(v, p.datum.lat, p.datum.lon, p.datum.ele, p.datum.createdAt,
                       p.id, p.feedId, p.feedKey, p.createdEpoch, p.expiration))
  }

  /** The datum read from members whose every lookup reads as the datum's field. */
  lemma ReadDatumOf<T>(ms: seq<Member>, reader: ValueReader<T>, dates: DateFormat, d: Datum<T>)
    requires ReadValue(Get(ms, "value"), reader) == Some(d.value)
    requires ReadOptSingle(Get(ms, "lat")) == Some(d.lat)
    requires ReadOptSingle(Get(ms, "lon")) == Some(d.lon)
    requires ReadOptSingle(Get(ms, "ele")) == Some(d.ele)
    requires ReadOptDate(Get(ms, "created_at"), dates) == Some(d.createdAt)
    ensures ReadDatum(ms, reader, dates) == Some(d)
  {
  }

  /** A string value written by the null-ignoring serializer, or left out because
      it is null, reads back as itself. */
  lemma ReadWrittenString(s: NullableString, floatText: Single -> string)
    ensures ReadValue(Present(StringOrNull(s)), StringReader(floatText)) == Some(s)
  {
  }

  /** An optional number written as a member, or left out, reads back as itself. */
  lemma ReadWrittenSingle(f: Option<Single>)
    ensures ReadOptSingle(Present(SingleOrNull(f))) == Some(f)
  {
  }

  /** An optional time written as a member, or left out, reads back as itself. */
  lemma ReadWrittenDate(t: Option<DateTime>, dates: DateFormat)
    requires DateCodec(dates)
    ensures ReadOptDate(Present(DateOrNull(t, dates)), dates) == Some(t)
  {
    if t.Some? {
      assert dates.read(dates.write(t.value)) == Some(t.value);
    }
  }

  /** The datum members of the string document read back as the datum. */
  lemma ReadStringDatum(d: Datum<NullableString>, dates: DateFormat, floatText: Single -> string)
    requires DateCodec(dates)
    ensures ReadDatum(StringDocument(d, dates).members, StringReader(floatText), dates) == Some(d)
  {
    var ms := StringDocument(d, dates).members;
    StringDocumentField(d, dates, "value");
    StringDocumentField(d, dates, "lat");
    StringDocumentField(d, dates, "lon");
    StringDocumentField(d, dates, "ele");
    StringDocumentField(d, dates, "created_at");
    ReadWrittenString(d.value, floatText);
    ReadWrittenSingle(d.lat);
    ReadWrittenSingle(d.lon);
    ReadWrittenSingle(d.ele);
    ReadWrittenDate(d.createdAt, dates);
    ReadDatumOf(ms, StringReader(floatText), dates, d);
  }

  /** The string document has no member under any key but the five datum ones. */
  lemma StringDocumentLacks(d: Datum<NullableString>, dates: DateFormat, key: string)
    requires key != "value" && key != "lat" && key != "lon" && key != "ele" && key != "created_at"
    ensures Get(StringDocument(d, dates).members, key) == None
  {
    StringDocumentField(d, dates, key);
  }

  /** Reading the document `GetJson` writes gives back the datum, with the
      platform-assigned fields at their defaults. */
  lemma ReadStringDocument(d: Datum<NullableString>, dates: DateFormat, floatText: Single -> string)
    requires DateCodec(dates)
    ensures ReadDataPoint(StringDocument(d, dates), dates, floatText) == Some(DataPoint(d, None, 0, None, 0, 0))
  {
    ReadStringDatum(d, dates, floatText);
    StringDocumentLacks(d, dates, "id");
    StringDocumentLacks(d, dates, "feed_id");
    StringDocumentLacks(d, dates, "feed_key");
    StringDocumentLacks(d, dates, "created_epoch");
    StringDocumentLacks(d, dates, "expiration");
  }

  /** What the platform reads from the body of a create request, by the same
      member rules: the value's serialized text, and the four metadata fields
      back as they were, a null one included. */
  lemma PlainDocumentReadsBack<T>(d: Datum<T>, ser: T -> string, dates: DateFormat)
    requires DateCodec(dates)
    ensures var ms := PlainDocument(d, ser, dates).members;
      && Get(ms, "value") == Some(JRaw(ser(d.value)))
      && ReadOptSingle(Get(ms, "lat")) == Some(d.lat)
      && ReadOptSingle(Get(ms, "lon")) == Some(d.lon)
      && ReadOptSingle(Get(ms, "ele")) == Some(d.ele)
      && ReadOptDate(Get(ms, "created_at"), dates) == Some(d.createdAt)
  {
    var ms := PlainDocument(d, ser, dates).members;
    PlainDocumentGet(d, ser, dates, 0);
    PlainDocumentGet(d, ser, dates, 1);
    PlainDocumentGet(d, ser, dates, 2);
    PlainDocumentGet(d, ser, dates, 3);
    PlainDocumentGet(d, ser, dates, 4);
    if d.createdAt.Some? {
      assert dates.read(dates.write(d.createdAt.value)) == Some(d.createdAt.value);
    }
  }

  /** Each of the five keys of the create body finds its own member. */
  lemma PlainDocumentGet<T>(d: Datum<T>, ser: T -> string, dates: DateFormat, i: nat)
    requires i < 5
    ensures var ms := PlainDocument(d, ser, dates).members;
      |ms| == 5 && Get(ms, ms[i].key) == Some(ms[i].val)
  {
    var ms := PlainDocument(d, ser, dates).members;
    var keys := ["value", "lat", "lon", "ele", "created_at"];
    assert Keys(ms) == keys;
    assert forall k :: i < k < |ms| ==> ms[k].key != ms[i].key by {
      forall k | i < k < |ms| ensures ms[k].key != ms[i].key {
        assert ms[k].key == keys[k] && ms[i].key == keys[i];
      }
    }
    GetAt(ms, i);
  }

  /** A point document without a `value` member still reads: the JSON library
      passes `default(T)` for a constructor parameter whose member is missing,
      and the members that are there are read as usual. */
  lemma MissingValueIsDefault<T>(reader: ValueReader<T>, dates: DateFormat, lon: Single, t: DateTime)
    requires DateCodec(dates)
    ensures ReadPoint(JObject([Member("lon", JSingle(lon)), Member("created_at", JString(dates.write(t)))]), reader, dates)
      == Some(DataPoint(Datum(reader.absent, None, Some(lon), None, Some(t)), None, 0, None, 0, 0))
  {
    var ms := [Member("lon", JSingle(lon)), Member("created_at", JString(dates.write(t)))];
    assert dates.read(dates.write(t)) == Some(t);
    assert Get(ms, "value") == None && Get(ms, "lat") == None && Get(ms, "ele") == None;
    assert Get(ms, "lon") == Some(JSingle(lon));
    assert Get(ms, "created_at") == Some(JString(dates.write(t)));
    ReadDatumOf(ms, reader, dates, Datum(reader.absent, None, Some(lon), None, Some(t)));
    assert Get(ms, "id") == None && Get(ms, "feed_id") == None && Get(ms, "feed_key") == None;
    assert Get(ms, "created_epoch") == None && Get(ms, "expiration") == None;
  }

  /** The double encoding round-trips: a datum written by the non-string branch of
      `GetJson` and read by the non-string branch of `GenerateFromJson` comes back
      with its value and metadata, provided the JSON library's text layer, its
      date format and the value serializer each invert themselves. */
  lemma GetJsonRoundTrip<T(!new)>(d: Datum<T>, ser: T -> string, deser: string -> Option<T>, dates: DateFormat,
                                  floatText: Single -> string, render: Json -> string,
                                  parseText: string -> Option<Json>)
    requires ValueCodec(ser, deser) && TextCodec(render, parseText) && DateCodec(dates)
    ensures GenerateFromJson(GetJson(d, ser, dates, render), parseText, dates, floatText, deser)
      == Success(DataPoint(d, None, 0, None, 0, 0))
  {
    var s := AsStringDatum(d, ser);
    StringDocumentRawFree(s, dates);
    ReadStringDocument(s, dates, floatText);
    assert parseText(render(StringDocument(s, dates))) == Some(StringDocument(s, dates));
    assert deser(ser(d.value)) == Some(d.value);
  }

  /** The string branches round-trip as well, a null value included, with no
      value serializer involved. */
  lemma GetJsonStringRoundTrip(d: Datum<NullableString>, dates: DateFormat, floatText: Single -> string,
                               render: Json -> string, parseText: string -> Option<Json>)
    requires TextCodec(render, parseText) && DateCodec(dates)
    ensures GenerateFromJsonString(GetJsonString(d, dates, render), parseText, dates, floatText)
      == Success(Some(DataPoint(d, None, 0, None, 0, 0)))
  {
    StringDocumentRawFree(d, dates);
    ReadStringDocument(d, dates, floatText);
    assert parseText(render(StringDocument(d, dates))) == Some(StringDocument(d, dates));
  }
}

=== FILE: datum.dfy ===
/** `Datum<T>`: a value to be written to a feed, with optional location and
    creation-time metadata, and the JSON documents written for it. */
module Datums {
  import opened Wrappers
  import opened Primitives
  import opened TimeIntervals
  import opened Json

  datatype Datum<T> = Datum(
    value: T,
    lat: Option<Single>,
    lon: Option<Single>,
    ele: Option<Single>,
    createdAt: Option<DateTime>)

  /** The five-argument constructor, which every shorter one reaches. */
  function Make<T>(value: T, lat: Option<Single>, lon: Option<Single>, ele: Option<Single>,
                   createdAt: Option<DateTime>): (d: Datum<T>)
    ensures d.value == value && d.lat == lat && d.lon == lon && d.ele == ele && d.createdAt == createdAt
  {
    Datum(value, lat, lon, ele, createdAt)
  }

  /** `Datum(value, lat, lon, ele)`: no creation time. */
  function WithLocation<T>(value: T, lat: Option<Single>, lon: Option<Single>, ele: Option<Single>): (d: Datum<T>)
    ensures d == Datum(value, lat, lon, ele, None)
  {
    Make(value, lat, lon, ele, None)
  }

  /** `Datum(value, lat, lon, createdAt)`: no elevation. */
  function WithPositionAndTime<T>(value: T, lat: Option<Single>, lon: Option<Single>,
                                  createdAt: Option<DateTime>): (d: Datum<T>)
    ensures d == Datum(value, lat, lon, None, createdAt)
  {
    Make(value, lat, lon, None, createdAt)
  }

  /** `Datum(value, lat, lon)`: chains to the elevation overload with a null
      elevation, so neither elevation nor creation time is set. */
  function WithPosition<T>(value: T, lat: Option<Single>, lon: Option<Single>): (d: Datum<T>)
    ensures d == Datum(value, lat, lon, None, None)
  {
    WithLocation(value, lat, lon, None)
  }

  /** `Datum(value, createdAt)`: no location. */
  function WithTime<T>(value: T, createdAt: Option<DateTime>): (d: Datum<T>)
    ensures d == Datum(value, None, None, None, createdAt)
  {
    WithPositionAndTime(value, None, None, createdAt)
  }

  /** `Datum(value)`: every metadata field null. */
  function FromValue<T>(value: T): (d: Datum<T>)
    ensures d == Datum(value, None, None, None, None)
  {
    WithTime(value, None)
  }

  // The documents written for a datum.

  /** A float is written as a JSON number, a null one as `null`. */
  function SingleOrNull(f: Option<Single>): (j: Json)
    ensures j.JNull? <==> f.None?
    ensures f.Some? ==> j == JSingle(f.value)
  {
    if f.Some? then JSingle(f.value) else JNull
  }

  /** A time is written as a JSON string in the library's date format. */
  function DateOrNull(t: Option<DateTime>, dates: DateFormat): (j: Json)
    ensures j.JNull? <==> t.None?
    ensures t.Some? ==> j == JString(dates.write(t.value))
  {
    if t.Some? then JString(dates.write(t.value)) else JNull
  }

  /** A string is written as a JSON string, a null reference as `null`. */
  function StringOrNull(s: NullableString): (j: Json)
    ensures j.JNull? <==> s.None?
    ensures s.Some? ==> j == JString(s.value)
  {
    if s.Some? then JString(s.value) else JNull
  }

  /** A one-member list when the field is set, nothing when it is null. */
  function Optional(key: string, j: Json): seq<Member>
  {
    if j.JNull? then [] else [Member(key, j)]
  }

  /** The document of `GetJson` on a `Datum<string>`: the object serialized with
      null members left out, a null value included. */
  function StringDocument(d: Datum<NullableString>, dates: DateFormat): (j: Json)
    ensures j.JObject?
    ensures d.value.Some? ==> |j.members| > 0 && j.members[0] == Member("value", JString(d.value.value))
    ensures forall i :: 0 <= i < |j.members| ==> j.members[i].val != JNull && !j.members[i].val.JRaw?
  {
    var members := Optional("value", StringOrNull(d.value))
      + Optional("lat", SingleOrNull(d.lat))
      + Optional("lon", SingleOrNull(d.lon))
      + Optional("ele", SingleOrNull(d.ele))
      + Optional("created_at", DateOrNull(d.createdAt, dates));
    JObject(members)
  }

  /** The `Datum<string>` that the non-string branch of `GetJson` builds: the value
      replaced by its serialized text, the metadata carried over. */
  function AsStringDatum<T>(d: Datum<T>, ser: T -> string): (s: Datum<NullableString>)
    ensures s.value == Some(ser(d.value))
    ensures s.lat == d.lat && s.lon == d.lon && s.ele == d.ele && s.createdAt == d.createdAt
  {
    Make(Some(ser(d.value)), d.lat, d.lon, d.ele, d.createdAt)
  }

  /** The document `GetJson` writes for a non-string value: the value travels as
      a JSON string holding its own serialization, never as a bare number or
      object, and only the set metadata members appear. */
  function Document<T>(d: Datum<T>, ser: T -> string, dates: DateFormat): (j: Json)
    ensures j.JObject? && |j.members| > 0
    ensures j.members[0] == Member("value", JString(ser(d.value)))
    ensures forall i :: 0 <= i < |j.members| ==> !j.members[i].val.JRaw? && j.members[i].val != JNull
  {
    StringDocument(AsStringDatum(d, ser), dates)
  }

  lemma {:induction false} GetAppend(a: seq<Member>, b: seq<Member>, key: string)
    ensures Get(a + b, key) == if Get(b, key).Some? then Get(b, key) else Get(a, key)
    decreases |b|
  {
    if |b| == 0 {
      assert a + b == a;
    } else {
      var ab := a + b;
      assert ab[..|ab| - 1] == a + b[..|b| - 1];
      GetAppend(a, b[..|b| - 1], key);
    }
  }

  lemma GetOptional(key: string, j: Json, other: string)
    ensures Get(Optional(key, j), other) == if key == other && !j.JNull? then Some(j) else None
  {
  }

  function Present(j: Json): Option<Json>
  {
    if j.JNull? then None else Some(j)
  }

  /** The lookup of `key` in the string document, split at its five parts. */
  lemma StringDocumentGet(d: Datum<NullableString>, dates: DateFormat, key: string)
    ensures Get(StringDocument(d, dates).members, key)
      == if Get(Optional("created_at", DateOrNull(d.createdAt, dates)), key).Some? then Get(Optional("created_at", DateOrNull(d.createdAt, dates)), key)
         else if Get(Optional("ele", SingleOrNull(d.ele)), key).Some? then Get(Optional("ele", SingleOrNull(d.ele)), key)
         else if Get(Optional("lon", SingleOrNull(d.lon)), key).Some? then Get(Optional("lon", SingleOrNull(d.lon)), key)
         else if Get(Optional("lat", SingleOrNull(d.lat)), key).Some? then Get(Optional("lat", SingleOrNull(d.lat)), key)
         else Get(Optional("value", StringOrNull(d.value)), key)
  {
    var v := Optional("value", StringOrNull(d.value));
    var o1 := Optional("lat", SingleOrNull(d.lat));
    var o2 := Optional("lon", SingleOrNull(d.lon));
    var o3 := Optional("ele", SingleOrNull(d.ele));
    var o4 := Optional("created_at", DateOrNull(d.createdAt, dates));
    GetAppend(v + o1 + o2 + o3, o4, key);
    GetAppend(v + o1 + o2, o3, key);
    GetAppend(v + o1, o2, key);
    GetAppend(v, o1, key);
  }

  /** The JSON written for the field under `key`, null when the field is. */
  function FieldJson(d: Datum<NullableString>, dates: DateFormat, key: string): Json
  {
    if key == "value" then StringOrNull(d.value)
    else if key == "lat" then SingleOrNull(d.lat)
    else if key == "lon" then SingleOrNull(d.lon)
    else if key == "ele" then SingleOrNull(d.ele)
    else if key == "created_at" then DateOrNull(d.createdAt, dates)
    else JNull
  }

  /** A member of the string document is there exactly when its field is set,
      and holds the field's value; no other key has a member. */
  lemma StringDocumentField(d: Datum<NullableString>, dates: DateFormat, key: string)
    ensures Get(StringDocument(d, dates).members, key) == Present(FieldJson(d, dates, key))
  {
    StringDocumentGet(d, dates, key);
    GetOptional("value", StringOrNull(d.value), key);
    GetOptional("lat", SingleOrNull(d.lat), key);
    GetOptional("lon", SingleOrNull(d.lon), key);
    GetOptional("ele", SingleOrNull(d.ele), key);
    GetOptional("created_at", DateOrNull(d.createdAt, dates), key);
  }

  /** The string document holds no embedded serializer output anywhere. */
  lemma StringDocumentRawFree(d: Datum<NullableString>, dates: DateFormat)
    ensures RawFree(StringDocument(d, dates))
  {
  }

  /** `GetJson` for `T = string`. */
  function GetJsonString(d: Datum<NullableString>, dates: DateFormat, render: Json -> string): string
  {
    render(StringDocument(d, dates))
  }

  /** `GetJson` for any other `T`: recurses once, into the string branch. */
  function GetJson<T>(d: Datum<T>, ser: T -> string, dates: DateFormat, render: Json -> string): (r: string)
    ensures r == GetJsonString(AsStringDatum(d, ser), dates, render)
  {
    render(Document(d, ser, dates))
  }

  /** The document of a plain `SerializeObject(datum)`: all five members in
      declaration order, null ones written as `null`, the value as its own JSON. */
  function PlainDocument<T>(d: Datum<T>, ser: T -> string, dates: DateFormat): (j: Json)
    ensures j.JObject? && Keys(j.members) == ["value", "lat", "lon", "ele", "created_at"]
    ensures j.members[0].val == JRaw(ser(d.value))
    ensures j.members[1].val == SingleOrNull(d.lat)
    ensures j.members[2].val == SingleOrNull(d.lon)
    ensures j.members[3].val == SingleOrNull(d.ele)
    ensures j.members[4].val == DateOrNull(d.createdAt, dates)
  {
    JObject([
      Member("value", JRaw(ser(d.value))),
      Member("lat", SingleOrNull(d.lat)),
      Member("lon", SingleOrNull(d.lon)),
      Member("ele", SingleOrNull(d.ele)),
      Member("created_at", DateOrNull(d.createdAt, dates))])
  }
}

=== FILE: errors.dfy ===
/** The exceptions the client lets escape, the rule that wraps low-level transport
    failures, and the classification of an unsuccessful HTTP response. */
module Errors {
  import opened Wrappers
  import opened Text

  /** An exception, by class. The classes of the library itself carry the message
      and inner exception they were built with. */
  datatype Exception =
      /** The three failures of the HTTP stack. The filter that catches them tests
          the type with `is`, so each stands for its class and every subclass,
          such as the `ObjectDisposedException` of a disposed `HttpClient`
          under `InvalidOperation`. */
    | InvalidOperation
    | HttpRequest
    | TaskCanceled
      /** The JSON library rejected a response body. */
    | JsonFailure
      /** An `ArgumentOutOfRangeException`: `List<T>[0]` on an empty list. */
    | ArgumentOutOfRange
      /** Indexing a list the JSON library read as `null`. */
    | NullReference
    | HttpResult(message: string)
    | InvalidApiKey(message: string, inner: Exception)
    | UsernameNotFound(message: string, inner: Exception)
    | GeneralNotFound(message: string, inner: Exception)
    | Connection(message: string, inner: Exception)
      /** Any other class the transport may throw, by name: one outside the
          three hierarchies above and not among the classes listed here. */
    | Other(className: string)

  /** The exception filter of every request method's first `catch`: an `is` test
      against the three classes, so subclasses match as well. */
  predicate IsTransportFailure(e: Exception)
  {
    e.InvalidOperation? || e.HttpRequest? || e.TaskCanceled?
  }

  const ConnectionMessage: string := "Exception in http request."

  /** The two `catch` clauses of a request method: a transport failure becomes a
      `ConnectionException` around it, anything else is rethrown as it is. */
  function Wrap(e: Exception): (r: Exception)
    ensures IsTransportFailure(e) ==> r == Connection(ConnectionMessage, e)
    ensures !IsTransportFailure(e) ==> r == e
  {
    if IsTransportFailure(e) then Connection(ConnectionMessage, e) else e
  }

  /** Wrapping twice is wrapping once: a `ConnectionException` is never wrapped
      again, and the original failure is its inner exception. */
  lemma WrapIdempotent(e: Exception)
    ensures Wrap(Wrap(e)) == Wrap(e)
    ensures IsTransportFailure(e) ==> Wrap(e).inner == e
  {
  }

  /** `HttpResponseMessage.IsSuccessStatusCode`. */
  predicate IsSuccess(status: int)
  {
    200 <= status <= 299
  }

  const Unauthorized: int := 401
  const NotFound: int := 404

  /** A 401 body recognised as the wrong-key message. */
  predicate IsInvalidKeyBody(body: string)
  {
    EqualsIgnoreCase(body, InvalidKeyBody)
  }

  /** A 404 body recognised as the unknown-username message. */
  predicate IsUnknownUserBody(body: string)
  {
    EqualsIgnoreCase(body, UnknownUserBody)
  }

  /** The body the platform sends with a 401 for a wrong key. */
  const InvalidKeyBody: string := "{\"error\":\"request failed - invalid API key provided\"}"

  /** The body the platform sends with a 404 for an unknown username. */
  const UnknownUserBody: string := "{\"error\":\"not found - that username does not exist\"}"

  // The fixed parts of the two messages the classifier composes.

  const ResultHead: string := "Error Response Status-Code (HTTP): "
  const ResultMid: string := ". Content of the Response is: "
  const NotFoundHead: string :=
    "Cannot find the requested data. This might be caused by an invalid feed key, please check if the feed "
  const NotFoundMid: string := " is available under the account with the username "

  /** The message of the `HttpResultException` built for every unsuccessful
      response; `statusName` is the status code's `ToString()`. */
  function ResultMessage(statusName: string, body: string): (m: string)
    ensures IsSubstring(statusName, m) && IsSubstring(body, m)
  {
    var m := ResultHead + statusName + ResultMid + body + ".";
    assert m == ResultHead + statusName + (ResultMid + body + ".");
    InMiddle(ResultHead, statusName, ResultMid + body + ".");
    assert m == (ResultHead + statusName + ResultMid) + body + ".";
    InMiddle(ResultHead + statusName + ResultMid, body, ".");
    m
  }

  /** The message of `GeneralNotFoundException(username, feedKey, inner)`. */
  function NotFoundMessage(username: string, feedKey: string): (m: string)
    ensures IsSubstring(feedKey, m) && IsSubstring(username, m)
  {
    var m := NotFoundHead + feedKey + NotFoundMid + username;
    assert m == NotFoundHead + feedKey + (NotFoundMid + username);
    InMiddle(NotFoundHead, feedKey, NotFoundMid + username);
    assert m == (NotFoundHead + feedKey + NotFoundMid) + username + "";
    InMiddle(NotFoundHead + feedKey + NotFoundMid, username, "");
    m
  }

  /** Which exception class an unsuccessful response is reported with. */
  datatype Verdict = Accepted | KeyRejected | UserUnknown | FeedNotFound | Failed

  /** The decision of `RaiseErrorIfHttpResponseErrorAsync`, by status and body. */
  function Decide(status: int, body: string): (v: Verdict)
    ensures v == Accepted <==> IsSuccess(status)
    ensures v == KeyRejected <==> status == Unauthorized && IsInvalidKeyBody(body)
    ensures v == UserUnknown <==> status == NotFound && IsUnknownUserBody(body)
    ensures v == FeedNotFound <==> status == NotFound && !IsUnknownUserBody(body)
    ensures v == Failed <==>
      !IsSuccess(status) && status != NotFound && !(status == Unauthorized && IsInvalidKeyBody(body))
  {
    if IsSuccess(status) then Accepted
    else if status == Unauthorized then (if IsInvalidKeyBody(body) then KeyRejected else Failed)
    else if status == NotFound then (if IsUnknownUserBody(body) then UserUnknown else FeedNotFound)
    else Failed
  }

  /** `RaiseErrorIfHttpResponseErrorAsync`: `None` when the response may be read,
      otherwise the exception it throws, whose class follows the decision. */
  function Classify(status: int, body: string, username: string, feed: string,
                    statusName: int -> string): (r: Option<Exception>)
    ensures r.None? <==> Decide(status, body) == Accepted
    ensures r.Some? ==> (r.value.InvalidApiKey? <==> Decide(status, body) == KeyRejected)
    ensures r.Some? ==> (r.value.UsernameNotFound? <==> Decide(status, body) == UserUnknown)
    ensures r.Some? ==> (r.value.GeneralNotFound? <==> Decide(status, body) == FeedNotFound)
    ensures r.Some? ==> (r.value.HttpResult? <==> Decide(status, body) == Failed)
  {
    var inner := HttpResult(ResultMessage(statusName(status), body));
    match Decide(status, body)
    case Accepted => None
    case KeyRejected => Some(InvalidApiKey(username, inner))
    case UserUnknown => Some(UsernameNotFound(username, inner))
    case FeedNotFound => Some(GeneralNotFound(NotFoundMessage(username, feed), inner))
    case Failed => Some(inner)
  }

  /** What the messages carry: the key and username errors hold the username as
      their whole message, the feed error names both feed and username, and every
      error's `HttpResultException` quotes the response body. */
  lemma ClassifyMessages(status: int, body: string, username: string, feed: string,
                         statusName: int -> string)
    requires !IsSuccess(status)
    ensures var e := Classify(status, body, username, feed, statusName).value;
      && (e.InvalidApiKey? || e.UsernameNotFound? ==> e.message == username)
      && (e.GeneralNotFound? ==> IsSubstring(feed, e.message) && IsSubstring(username, e.message))
      && (e.HttpResult? ==> IsSubstring(body, e.message))
      && (!e.HttpResult? ==> e.inner.HttpResult? && IsSubstring(body, e.inner.message))
  {
  }

  /** The errors the classifier raises inside a request method's `try` leave it
      unchanged: none of them is a transport failure. */
  lemma ClassifiedPassThrough(status: int, body: string, username: string, feed: string,
                              statusName: int -> string)
    requires !IsSuccess(status)
    ensures Wrap(Classify(status, body, username, feed, statusName).value)
      == Classify(status, body, username, feed, statusName).value
  {
  }
}

=== FILE: include_data.dfy ===
/** The `IncludeData` flags enum and its `GetDataText` rendering: the `include`
    query value asking the platform for a subset of a data point's fields. */
module IncludeData {
  import opened Wrappers
  import opened Text

  /** The underlying 32-bit value of the `[Flags]` enum; any value can be cast in. */
  type Mask = bv32

  const Value: Mask := 0
  const Lat: Mask := 1
  const Lon: Mask := 2
  const Ele: Mask := 4
  const ID: Mask := 8
  const CreatedAt: Mask := 16

  /** The bits that name a field; `Value` has none. */
  const Named: Mask := 31

  /** `Enum.HasFlag`: every bit of `flag` is also set in `m`. Because `Value` is
      zero, `HasFlag(m, Value)` holds for every `m`. */
  predicate HasFlag(m: Mask, flag: Mask)
  {
    m & flag == flag
  }

  /** One step of the source's chain: append `token;` when `flag` is set. */
  function Append(acc: string, m: Mask, flag: Mask, token: string): string
  {
    if HasFlag(m, flag) then acc + token + ";" else acc
  }

  /** The string the chain has built before the trailing `;` is dropped. */
  function Accumulated(m: Mask): string
  {
    var v := Append("", m, Value, "value");
    var v := Append(v, m, Lat, "lat");
    var v := Append(v, m, Lon, "lon");
    var v := Append(v, m, Ele, "ele");
    var v := Append(v, m, ID, "id");
    Append(v, m, CreatedAt, "created_at")
  }

  /** `IncludeDataExtensions.GetDataText`: the accumulated tokens with the last
      character removed, or the empty string when nothing was accumulated. */
  function GetDataText(m: Mask): (t: string)
    ensures |t| >= 5 && t[..5] == "value"
    ensures t[|t| - 1] != ';'
  {
    var value := Accumulated(m);
    if |value| <= 0 then "" else value[..|value| - 1]
  }

  // Reference definition: the selected tokens of a fixed table, joined by `;`.

  const Flags: seq<Mask> := [Value, Lat, Lon, Ele, ID, CreatedAt]
  const Tokens: seq<string> := ["value", "lat", "lon", "ele", "id", "created_at"]

  /** The tokens of those of the first `k` table entries whose flag is set in `m`,
      in table order. */
  function Selected(m: Mask, k: nat): seq<string>
    requires k <= |Flags|
  {
    if k == 0 then []
    else Selected(m, k - 1) + (if HasFlag(m, Flags[k - 1]) then [Tokens[k - 1]] else [])
  }

  /** The tokens that `m` selects. */
  function TokensOf(m: Mask): seq<string>
  {
    Selected(m, |Flags|)
  }

  /** The position of a token in the table (`|Tokens|` for anything else). */
  function Rank(t: string): nat
  {
    if t == "value" then 0
    else if t == "lat" then 1
    else if t == "lon" then 2
    else if t == "ele" then 3
    else if t == "id" then 4
    else if t == "created_at" then 5
    else 6
  }

  /** Every token followed by a `;`. */
  function Terminated(toks: seq<string>): string
  {
    if |toks| == 0 then "" else Terminated(toks[..|toks| - 1]) + toks[|toks| - 1] + ";"
  }

  lemma TerminatedSnoc(toks: seq<string>, t: string)
    ensures Terminated(toks + [t]) == Terminated(toks) + t + ";"
  {
    assert (toks + [t])[..|toks|] == toks;
  }

  lemma {:induction false} JoinSnoc(toks: seq<string>, t: string, sep: char)
    requires |toks| > 0
    ensures Join(toks + [t], sep) == Join(toks, sep) + [sep] + t
    decreases |toks|
  {
    if |toks| == 1 {
      assert (toks + [t])[1..] == [t];
    } else {
      assert (toks + [t])[1..] == toks[1..] + [t];
      JoinSnoc(toks[1..], t, sep);
    }
  }

  lemma {:induction false} TerminatedIsJoin(toks: seq<string>)
    requires |toks| > 0
    ensures Terminated(toks) == Join(toks, ';') + ";"
    decreases |toks|
  {
    var init := toks[..|toks| - 1];
    var last := toks[|toks| - 1];
    assert Terminated(toks) == Terminated(init) + last + ";";
    if |init| == 0 {
      assert toks == [last];
    } else {
      TerminatedIsJoin(init);
      JoinSnoc(init, last, ';');
      assert init + [last] == toks;
      assert Terminated(toks) == Join(init, ';') + [';'] + last + ";";
    }
  }

  lemma AppendStep(m: Mask, k: nat)
    requires 0 < k <= |Flags|
    ensures Append(Terminated(Selected(m, k - 1)), m, Flags[k - 1], Tokens[k - 1])
            == Terminated(Selected(m, k))
  {
    if HasFlag(m, Flags[k - 1]) {
      TerminatedSnoc(Selected(m, k - 1), Tokens[k - 1]);
    } else {
      assert Selected(m, k) == Selected(m, k - 1);
    }
  }

  /** The first `k` steps of the chain, driven by the table. */
  function Chain(m: Mask, k: nat): string
    requires k <= |Flags|
  {
    if k == 0 then "" else Append(Chain(m, k - 1), m, Flags[k - 1], Tokens[k - 1])
  }

  lemma {:induction false} ChainIsTerminated(m: Mask, k: nat)
    requires k <= |Flags|
    ensures Chain(m, k) == Terminated(Selected(m, k))
    decreases k
  {
    if k > 0 {
      ChainIsTerminated(m, k - 1);
      AppendStep(m, k);
    }
  }

  /** The source's six steps are the table's six entries. */
  lemma AccumulatedIsChain(m: Mask)
    ensures Accumulated(m) == Chain(m, 6)
  {
    var v1 := Append("", m, Value, "value");
    assert Chain(m, 1) == v1;
    var v2 := Append(v1, m, Lat, "lat");
    assert Chain(m, 2) == v2;
    var v3 := Append(v2, m, Lon, "lon");
    assert Chain(m, 3) == v3;
    var v4 := Append(v3, m, Ele, "ele");
    assert Chain(m, 4) == v4;
    var v5 := Append(v4, m, ID, "id");
    assert Chain(m, 5) == v5;
    assert Chain(m, 6) == Append(v5, m, CreatedAt, "created_at");
  }

  lemma AccumulatedIsTerminated(m: Mask)
    ensures Accumulated(m) == Terminated(TokensOf(m))
  {
    AccumulatedIsChain(m);
    ChainIsTerminated(m, 6);
  }

  /** The value flag is selected whatever the mask, and always first. */
  lemma ValueSelectedFirst(m: Mask)
    ensures |TokensOf(m)| > 0 && TokensOf(m)[0] == "value"
  {
    assert Selected(m, 1) == ["value"];
    SelectedPrefix(m, 1, |Flags|);
  }

  lemma {:induction false} SelectedPrefix(m: Mask, j: nat, k: nat)
    requires j <= k <= |Flags|
    ensures |Selected(m, j)| <= |Selected(m, k)|
    ensures Selected(m, k)[..|Selected(m, j)|] == Selected(m, j)
    decreases k
  {
    if j < k {
      SelectedPrefix(m, j, k - 1);
      var tail := if HasFlag(m, Flags[k - 1]) then [Tokens[k - 1]] else [];
      assert Selected(m, k) == Selected(m, k - 1) + tail;
      assert Selected(m, k)[..|Selected(m, k - 1)|] == Selected(m, k - 1);
    }
  }

  /** `GetDataText` is the selected tokens joined by single `;` separators:
      no leading, doubled or trailing separator. */
  lemma GetDataTextIsJoin(m: Mask)
    ensures GetDataText(m) == Join(TokensOf(m), ';')
  {
    AccumulatedIsTerminated(m);
    ValueSelectedFirst(m);
    TerminatedIsJoin(TokensOf(m));
  }

  lemma RankOfTokens()
    ensures forall r :: 0 <= r < |Tokens| ==> Rank(Tokens[r]) == r
  {
  }

  /** Every selected token is a table token of rank below `k`. */
  lemma {:induction false} SelectedRanks(m: Mask, k: nat)
    requires k <= |Flags|
    ensures forall i :: 0 <= i < |Selected(m, k)| ==>
      Rank(Selected(m, k)[i]) < k && Tokens[Rank(Selected(m, k)[i])] == Selected(m, k)[i]
    decreases k
  {
    if k > 0 {
      SelectedRanks(m, k - 1);
      RankOfTokens();
    }
  }

  /** Selected tokens keep table order. */
  lemma {:induction false} SelectedOrdered(m: Mask, k: nat)
    requires k <= |Flags|
    ensures forall i, j :: 0 <= i < j < |Selected(m, k)| ==> Rank(Selected(m, k)[i]) < Rank(Selected(m, k)[j])
    decreases k
  {
    if k > 0 {
      SelectedOrdered(m, k - 1);
      SelectedRanks(m, k - 1);
      RankOfTokens();
    }
  }

  /** A table token is selected exactly when its flag is set. */
  lemma {:induction false} SelectedHas(m: Mask, k: nat)
    requires k <= |Flags|
    ensures forall r :: 0 <= r < k ==> (Tokens[r] in Selected(m, k) <==> HasFlag(m, Flags[r]))
    decreases k
  {
    if k > 0 {
      SelectedHas(m, k - 1);
      SelectedRanks(m, k - 1);
      RankOfTokens();
      var prev := Selected(m, k - 1);
      forall r | 0 <= r < k
        ensures Tokens[r] in Selected(m, k) <==> HasFlag(m, Flags[r])
      {
        if r < k - 1 {
          assert Tokens[r] != Tokens[k - 1];
        } else {
          forall i | 0 <= i < |prev| ensures prev[i] != Tokens[k - 1] {
            assert Rank(prev[i]) < k - 1;
          }
        }
      }
    }
  }

  /** Each of `lat`, `lon`, `ele`, `id`, `created_at` is emitted exactly when its
      bit is set; `value` is emitted always; the tokens come in table order. */
  lemma TokenPresence(m: Mask)
    ensures "value" in TokensOf(m)
    ensures "lat" in TokensOf(m) <==> m & 1 != 0
    ensures "lon" in TokensOf(m) <==> m & 2 != 0
    ensures "ele" in TokensOf(m) <==> m & 4 != 0
    ensures "id" in TokensOf(m) <==> m & 8 != 0
    ensures "created_at" in TokensOf(m) <==> m & 16 != 0
    ensures forall i, j :: 0 <= i < j < |TokensOf(m)| ==> Rank(TokensOf(m)[i]) < Rank(TokensOf(m)[j])
  {
    SelectedHas(m, |Flags|);
    SelectedOrdered(m, |Flags|);
    assert Tokens[0] == "value" && Tokens[1] == "lat" && Tokens[2] == "lon";
    assert Tokens[3] == "ele" && Tokens[4] == "id" && Tokens[5] == "created_at";
  }

  /** The number of named bits set in `m`. */
  function PopCount(m: Mask): nat
  {
    (if m & 1 != 0 then 1 else 0) + (if m & 2 != 0 then 1 else 0) + (if m & 4 != 0 then 1 else 0)
    + (if m & 8 != 0 then 1 else 0) + (if m & 16 != 0 then 1 else 0)
  }

  lemma TokensFree(m: Mask)
    ensures Free(TokensOf(m), ';')
  {
    SelectedRanks(m, |Flags|);
    forall i | 0 <= i < |TokensOf(m)| ensures ';' !in TokensOf(m)[i] {
      var r := Rank(TokensOf(m)[i]);
      assert TokensOf(m)[i] == Tokens[r];
      assert ';' !in Tokens[r];
    }
  }

  /** A character that no token holds, other than `;`, never appears in the text. */
  lemma TextLacks(m: Mask, c: char)
    requires c != ';' && Free(Tokens, c)
    ensures c !in GetDataText(m)
  {
    GetDataTextIsJoin(m);
    SelectedRanks(m, |Flags|);
    forall i | 0 <= i < |TokensOf(m)| ensures c !in TokensOf(m)[i] {
      var r := Rank(TokensOf(m)[i]);
      assert TokensOf(m)[i] == Tokens[r];
    }
    JoinExcludes(TokensOf(m), ';', c);
  }

  /** The text holds neither `&` nor `=`, so it needs no escaping as a query value. */
  lemma TextUndelimited(m: Mask)
    ensures '&' !in GetDataText(m) && '=' !in GetDataText(m)
  {
    forall c | c == '&' || c == '=' ensures Free(Tokens, c) {
      forall i | 0 <= i < |Tokens| ensures c !in Tokens[i] {
        var t := Tokens[i];
        assert forall k :: 0 <= k < |t| ==> t[k] == '_' || 'a' <= t[k] <= 'z';
      }
    }
    TextLacks(m, '&');
    TextLacks(m, '=');
  }

  /** The text is never empty, begins with `value`, and holds one `;` per named bit
      set in the mask. */
  lemma GetDataTextShape(m: Mask)
    ensures |GetDataText(m)| > 0
    ensures GetDataText(m)[..5] == "value"
    ensures Count(GetDataText(m), ';') == PopCount(m)
  {
    GetDataTextIsJoin(m);
    ValueSelectedFirst(m);
    TokensFree(m);
    CountJoin(TokensOf(m), ';');
    SelectedCount(m);
    var toks := TokensOf(m);
    if |toks| > 1 {
      assert Join(toks, ';') == toks[0] + [';'] + Join(toks[1..], ';');
    }
  }

  /** One token for the value and one per named bit set. */
  lemma SelectedCount(m: Mask)
    ensures |TokensOf(m)| == 1 + PopCount(m)
  {
    assert |Selected(m, 1)| == 1;
    assert |Selected(m, 2)| == 1 + (if m & 1 != 0 then 1 else 0);
    assert |Selected(m, 3)| == |Selected(m, 2)| + (if m & 2 != 0 then 1 else 0);
    assert |Selected(m, 4)| == |Selected(m, 3)| + (if m & 4 != 0 then 1 else 0);
    assert |Selected(m, 5)| == |Selected(m, 4)| + (if m & 8 != 0 then 1 else 0);
    assert |Selected(m, 6)| == |Selected(m, 5)| + (if m & 16 != 0 then 1 else 0);
  }

  /** Bits outside the five named flags do not change the text. */
  lemma OtherBitsIgnored(m: Mask)
    ensures GetDataText(m) == GetDataText(m & Named)
  {
    assert forall f :: f in Flags ==> (HasFlag(m, f) <==> HasFlag(m & Named, f));
  }

  // The platform's reading of the `include` text: the inverse of `GetDataText`.

  /** The mask whose named bits are those of the tokens present in `toks`. */
  function MaskOfTokens(toks: seq<string>): Mask
  {
    (if "lat" in toks then Lat else 0) | (if "lon" in toks then Lon else 0)
    | (if "ele" in toks then Ele else 0) | (if "id" in toks then ID else 0)
    | (if "created_at" in toks then CreatedAt else 0)
  }

  /** Reads an `include` value back into the mask it requests; `None` when a
      piece is not a known token. */
  function ParseDataText(text: string): Option<Mask>
  {
    var toks := Split(text, ';');
    if forall i :: 0 <= i < |toks| ==> toks[i] in Tokens then Some(MaskOfTokens(toks)) else None
  }

  lemma MaskOfPresence(m: Mask, toks: seq<string>)
    requires "lat" in toks <==> m & 1 != 0
    requires "lon" in toks <==> m & 2 != 0
    requires "ele" in toks <==> m & 4 != 0
    requires "id" in toks <==> m & 8 != 0
    requires "created_at" in toks <==> m & 16 != 0
    ensures MaskOfTokens(toks) == m & Named
  {
  }

  /** Reading the text back recovers exactly the named bits of the mask, so two
      masks render alike exactly when their named bits agree. */
  lemma ParseGetDataText(m: Mask)
    ensures ParseDataText(GetDataText(m)) == Some(m & Named)
  {
    SplitsIntoTokens(m);
    TokensKnown(m);
    TokenPresence(m);
    MaskOfPresence(m, TokensOf(m));
  }

  /** Every selected token is one of the table's. */
  lemma TokensKnown(m: Mask)
    ensures forall i :: 0 <= i < |TokensOf(m)| ==> TokensOf(m)[i] in Tokens
  {
    SelectedRanks(m, |Flags|);
  }

  /** The text splits at `;` into exactly the selected tokens. */
  lemma SplitsIntoTokens(m: Mask)
    ensures Split(GetDataText(m), ';') == TokensOf(m)
  {
    GetDataTextIsJoin(m);
    ValueSelectedFirst(m);
    TokensFree(m);
    SplitJoin(TokensOf(m), ';');
  }

  /** Two masks yield the same text exactly when they agree on the named bits. */
  lemma SameTextIffSameNamedBits(a: Mask, b: Mask)
    ensures GetDataText(a) == GetDataText(b) <==> a & Named == b & Named
  {
    ParseGetDataText(a);
    ParseGetDataText(b);
    OtherBitsIgnored(a);
    OtherBitsIgnored(b);
  }
}

=== FILE: json.dfy ===
/** JSON documents as trees. Turning a tree into text and back is the JSON
    library's business and enters the model only as a pair of functions. A
    `DateTime` travels as an ordinary JSON string. */
module Json {
  import opened Wrappers
  import opened Primitives
  import opened TimeIntervals

  datatype Json =
    | JNull
    | JBool(b: bool)
    | JInt(i: int)
    | JSingle(f: Single)
    | JString(s: string)
      /** JSON text produced by a value serializer, embedded as it stands. */
    | JRaw(text: string)
    | JArray(items: seq<Json>)
    | JObject(members: seq<Member>)

  datatype Member = Member(key: string, val: Json)

  /** The value of the last member named `key`: a reader that fills an object
      member by member keeps the last one. */
  function Get(members: seq<Member>, key: string): (r: Option<Json>)
    ensures r.None? <==> forall i :: 0 <= i < |members| ==> members[i].key != key
  {
    if |members| == 0 then None
    else if members[|members| - 1].key == key then Some(members[|members| - 1].val)
    else Get(members[..|members| - 1], key)
  }

  /** A member no later member shadows is the one found under its key. */
  lemma {:induction false} GetAt(members: seq<Member>, i: nat)
    requires i < |members|
    requires forall k :: i < k < |members| ==> members[k].key != members[i].key
    ensures Get(members, members[i].key) == Some(members[i].val)
    decreases |members|
  {
    if i < |members| - 1 {
      var init := members[..|members| - 1];
      assert init[i] == members[i];
      GetAt(init, i);
    }
  }

  /** The keys of an object's members, in order. */
  function Keys(members: seq<Member>): (r: seq<string>)
    ensures |r| == |members|
    ensures forall i :: 0 <= i < |members| ==> r[i] == members[i].key
  {
    if |members| == 0 then [] else [members[0].key] + Keys(members[1..])
  }

  /** A tree with no embedded serializer output: its text form is pure JSON. */
  predicate RawFree(j: Json)
  {
    match j
    case JRaw(_) => false
    case JArray(items) => forall i :: 0 <= i < |items| ==> RawFree(items[i])
    case JObject(members) => forall i :: 0 <= i < |members| ==> RawFree(members[i].val)
    case _ => true
  }

  /** What the model assumes of the JSON library's text layer: parsing the text
      of a tree gives the tree back. */
  ghost predicate TextCodec(render: Json -> string, parseText: string -> Option<Json>)
  {
    forall j :: RawFree(j) ==> parseText(render(j)) == Some(j)
  }

  /** How the JSON library writes a `DateTime` into a JSON string, and reads a
      JSON string back into a `DateTime` member. */
  datatype DateFormat = DateFormat(write: DateTime -> string, read: string -> Option<DateTime>)

  /** What the model assumes of the date format: reading the text of a time gives
      the time back. */
  ghost predicate DateCodec(dates: DateFormat)
  {
    forall t: DateTime :: dates.read(dates.write(t)) == Some(t)
  }

  /** What the model assumes of the value serializer: deserializing the text of
      a value gives the value back. */
  ghost predicate ValueCodec<T(!new)>(ser: T -> string, deser: string -> Option<T>)
  {
    forall v :: deser(ser(v)) == Some(v)
  }
}

=== FILE: primitives.dfy ===
/** Fixed-width .NET value types the wire formats carry, and the C# `string`. */
module Primitives {
  import opened Wrappers

  /** A C# `int`. */
  type Int32 = x: int | -0x8000_0000 <= x < 0x8000_0000

  /** A C# `float`, as its IEEE-754 bit pattern: the model only copies these. */
  type Single = bv32

  /** A C# `string` reference: `None` is `null`. */
  type NullableString = Option<string>
}

=== FILE: query.dfy ===
/** Query strings as the client writes them: an ordered list of key/value pairs
    rendered as `key=value` joined by `&`, behind a `?` only when the list is not
    empty, and read back by splitting at `?`, `&` and `=`. */
module Queries {
  import opened Wrappers
  import opened Text

  type Query = seq<(string, string)>

  /** The keys of a query, in order. */
  function KeysOf(q: Query): (r: seq<string>)
    ensures |r| == |q| && forall i :: 0 <= i < |q| ==> r[i] == q[i].0
  {
    seq(|q|, i requires 0 <= i < |q| => q[i].0)
  }

  /** The value of the first pair with key `key`. */
  function Lookup(q: Query, key: string): (r: Option<string>)
    ensures r.None? <==> key !in KeysOf(q)
    ensures r.Some? ==> exists i :: 0 <= i < |q| && q[i] == (key, r.value)
  {
    if |q| == 0 then None
    else if q[0].0 == key then Some(q[0].1)
    else
      var r := Lookup(q[1..], key);
      assert KeysOf(q) == [q[0].0] + KeysOf(q[1..]);
      assert r.Some? ==> exists i :: 0 <= i < |q| && q[i] == (key, r.value) by {
        if r.Some? {
          var i :| 0 <= i < |q[1..]| && q[1..][i] == (key, r.value);
          assert q[i + 1] == (key, r.value);
        }
      }
      r
  }

  /** The pair for `key` when its optional argument is present, nothing otherwise:
      one `if (!(x is null)) queryParameters[key] = …` of the client. */
  function Entry(key: string, value: Option<string>): (q: Query)
    ensures value.None? ==> q == []
    ensures value.Some? ==> q == [(key, value.value)]
  {
    if value.Some? then [(key, value.value)] else []
  }

  /** The keys of `order` whose flag is set, in the order of `order`. */
  function Selected(order: seq<string>, flags: seq<bool>): seq<string>
    requires |order| == |flags|
  {
    if |order| == 0 then []
    else (if flags[0] then [order[0]] else []) + Selected(order[1..], flags[1..])
  }

  /** The query built from parallel lists of keys and optional values, in key
      order, one pair for each present value. */
  function Entries(keys: seq<string>, values: seq<Option<string>>): Query
    requires |keys| == |values|
  {
    if |keys| == 0 then [] else Entry(keys[0], values[0]) + Entries(keys[1..], values[1..])
  }

  /** Which of the values are present. */
  function IsSet(values: seq<Option<string>>): (r: seq<bool>)
    ensures |r| == |values| && forall i :: 0 <= i < |values| ==> r[i] == values[i].Some?
  {
    seq(|values|, i requires 0 <= i < |values| => values[i].Some?)
  }

  predicate Distinct(keys: seq<string>)
  {
    forall i, j :: 0 <= i < j < |keys| ==> keys[i] != keys[j]
  }

  lemma LookupAppend(a: Query, b: Query, key: string)
    ensures Lookup(a + b, key) == if Lookup(a, key).Some? then Lookup(a, key) else Lookup(b, key)
    decreases |a|
  {
    if |a| > 0 {
      assert (a + b)[1..] == a[1..] + b;
      LookupAppend(a[1..], b, key);
    } else {
      assert a + b == b;
    }
  }

  lemma KeysOfAppend(a: Query, b: Query)
    ensures KeysOf(a + b) == KeysOf(a) + KeysOf(b)
  {
  }

  /** The keys of the built query are the keys of the present values, in order. */
  lemma {:induction false} EntriesKeys(keys: seq<string>, values: seq<Option<string>>)
    requires |keys| == |values|
    ensures KeysOf(Entries(keys, values)) == Selected(keys, IsSet(values))
    decreases |keys|
  {
    if |keys| > 0 {
      KeysOfAppend(Entry(keys[0], values[0]), Entries(keys[1..], values[1..]));
      EntriesKeys(keys[1..], values[1..]);
      assert IsSet(values)[1..] == IsSet(values[1..]);
    }
  }

  /** With distinct keys, each key's lookup finds exactly its own value, absent
      or present. */
  lemma {:induction false} EntriesLookup(keys: seq<string>, values: seq<Option<string>>, i: nat)
    requires |keys| == |values| && Distinct(keys) && i < |keys|
    ensures Lookup(Entries(keys, values), keys[i]) == values[i]
    decreases |keys|
  {
    var head := Entry(keys[0], values[0]);
    LookupAppend(head, Entries(keys[1..], values[1..]), keys[i]);
    if i > 0 {
      assert keys[0] != keys[i];
      assert Lookup(head, keys[i]) == None;
      assert keys[1..][i - 1] == keys[i];
      EntriesLookup(keys[1..], values[1..], i - 1);
    } else if values[0].None? {
      assert keys[0] !in KeysOf(Entries(keys[1..], values[1..])) by {
        EntriesKeys(keys[1..], values[1..]);
        SelectedSubset(keys[1..], IsSet(values[1..]), keys[0]);
      }
    }
  }

  /** Only keys of the list are selected. */
  lemma {:induction false} SelectedSubset(keys: seq<string>, flags: seq<bool>, k: string)
    requires |keys| == |flags| && k !in keys
    ensures k !in Selected(keys, flags)
    decreases |keys|
  {
    if |keys| > 0 {
      assert k !in keys[1..];
      SelectedSubset(keys[1..], flags[1..], k);
    }
  }

  /** With no value present there is no pair at all. */
  lemma {:induction false} EntriesNone(keys: seq<string>, values: seq<Option<string>>)
    requires |keys| == |values| && forall i :: 0 <= i < |values| ==> values[i].None?
    ensures Entries(keys, values) == []
    decreases |keys|
  {
    if |keys| > 0 {
      EntriesNone(keys[1..], values[1..]);
    }
  }

  function PairText(p: (string, string)): string
  {
    p.0 + "=" + p.1
  }

  function PairTexts(q: Query): (r: seq<string>)
    ensures |r| == |q| && forall i :: 0 <= i < |q| ==> r[i] == PairText(q[i])
  {
    seq(|q|, i requires 0 <= i < |q| => PairText(q[i]))
  }

  /** `NameValueCollection.ToString()` of the query, without percent-encoding. */
  function Render(q: Query): string
  {
    Join(PairTexts(q), '&')
  }

  /** The text appended to a path: `"?" + Render(q)`, or nothing for an empty query. */
  function QueryString(q: Query): (s: string)
    ensures s == "" <==> |q| == 0
    ensures |q| > 0 ==> s[0] == '?' && s[1..] == Render(q)
  {
    if |q| <= 0 then "" else "?" + Render(q)
  }

  /** Neither keys nor values hold the characters that delimit them. */
  predicate Delimited(q: Query)
  {
    forall i :: 0 <= i < |q| ==>
      '&' !in q[i].0 && '=' !in q[i].0 && '&' !in q[i].1 && '=' !in q[i].1
  }

  /** A pair whose key and value hold no `&` or `=`, or no pair, splits back. */
  lemma EntryDelimited(key: string, value: Option<string>)
    requires '&' !in key && '=' !in key
    requires value.Some? ==> '&' !in value.value && '=' !in value.value
    ensures Delimited(Entry(key, value))
  {
  }

  /** Reads `key=value` texts back into pairs. */
  function ParsePairs(texts: seq<string>): Option<Query>
  {
    if |texts| == 0 then Some([])
    else
      var kv := Split(texts[0], '=');
      if |kv| != 2 then None
      else
        var rest :- ParsePairs(texts[1..]);
        Some([(kv[0], kv[1])] + rest)
  }

  /** Splits a URI at its first `?` into the path and the query read back. */
  function ParseUri(uri: string): (string, Option<Query>)
  {
    if '?' in uri then
      var i := IndexOf(uri, '?');
      (uri[..i], ParsePairs(Split(uri[i + 1..], '&')))
    else (uri, Some([]))
  }

  lemma {:induction false} ParsePairTexts(q: Query)
    requires Delimited(q)
    ensures ParsePairs(PairTexts(q)) == Some(q)
    decreases |q|
  {
    if |q| > 0 {
      var k := q[0].0;
      var v := q[0].1;
      assert Join([k, v], '=') == PairText(q[0]) by {
        assert [k, v][1..] == [v];
      }
      SplitJoin([k, v], '=');
      assert Split(PairTexts(q)[0], '=') == [k, v];
      assert PairTexts(q)[1..] == PairTexts(q[1..]);
      assert Delimited(q[1..]) by {
        forall i | 0 <= i < |q[1..]| ensures '&' !in q[1..][i].0 && '=' !in q[1..][i].0
                                        && '&' !in q[1..][i].1 && '=' !in q[1..][i].1 {
          assert q[1..][i] == q[i + 1];
        }
      }
      ParsePairTexts(q[1..]);
      assert [(k, v)] + q[1..] == q;
    }
  }

  lemma PairTextsFree(q: Query)
    requires Delimited(q)
    ensures Free(PairTexts(q), '&')
  {
    forall i | 0 <= i < |q| ensures '&' !in PairTexts(q)[i] {
      assert PairTexts(q)[i] == q[i].0 + "=" + q[i].1;
    }
  }

  /** The first `?` of `path + "?" + text` is the one after the path. */
  lemma FirstQuestionMark(path: string, text: string)
    requires '?' !in path
    ensures '?' in path + "?" + text
    ensures IndexOf(path + "?" + text, '?') == |path|
  {
    var uri := path + "?" + text;
    assert uri[|path|] == '?';
    var i := IndexOf(uri, '?');
    if i < |path| {
      assert false;
    } else if i > |path| {
      assert false;
    }
  }

  /** A URI made of a path free of `?` and a query string splits back into that
      path and that query; with no pairs there is no `?` at all. */
  lemma UriRoundTrip(path: string, q: Query)
    requires '?' !in path && Delimited(q)
    ensures ParseUri(path + QueryString(q)) == (path, Some(q))
    ensures |q| == 0 <==> '?' !in path + QueryString(q)
  {
    var uri := path + QueryString(q);
    if |q| == 0 {
      assert uri == path;
    } else {
      assert uri == path + "?" + Render(q);
      FirstQuestionMark(path, Render(q));
      var i := |path|;
      assert uri[..i] == path;
      assert uri[i + 1..] == Render(q);
      PairTextsFree(q);
      SplitJoin(PairTexts(q), '&');
      ParsePairTexts(q);
    }
  }
}

=== FILE: resolution.dfy ===
/** The `Resolution` enum of the chart endpoint: aggregation slices in minutes. */
module Resolutions {
  import opened Wrappers

  /** `FiveMinutes` is spelled `FifeMinutes` in the enum declaration. */
  datatype Resolution =
    | OneMinute | FiveMinutes | TenMinutes | ThirtyMinutes | OneHour
    | TwoHours | FourHours | EightHours | SixteenHours

  /** The enum's underlying value: the slice length in minutes. */
  function Minutes(r: Resolution): (n: int)
  {
    match r
    case OneMinute => 1
    case FiveMinutes => 5
    case TenMinutes => 10
    case ThirtyMinutes => 30
    case OneHour => 60
    case TwoHours => 120
    case FourHours => 240
    case EightHours => 480
    case SixteenHours => 960
  }

  /** The member with a given minute value, if any. */
  function FromMinutes(n: int): Option<Resolution>
  {
    if n == 1 then Some(OneMinute)
    else if n == 5 then Some(FiveMinutes)
    else if n == 10 then Some(TenMinutes)
    else if n == 30 then Some(ThirtyMinutes)
    else if n == 60 then Some(OneHour)
    else if n == 120 then Some(TwoHours)
    else if n == 240 then Some(FourHours)
    else if n == 480 then Some(EightHours)
    else if n == 960 then Some(SixteenHours)
    else None
  }

  /** Every slice is a positive whole number of minutes dividing sixteen hours,
      and the minute value identifies the member. */
  lemma MinutesRoundTrip(r: Resolution, n: int)
    ensures 0 < Minutes(r) && 960 % Minutes(r) == 0
    ensures FromMinutes(Minutes(r)) == Some(r)
    ensures FromMinutes(n) == Some(r) ==> Minutes(r) == n
  {
  }
}

=== FILE: text.dfy ===
/** String helpers shared by the request composer and the error messages: joining
    and splitting on a separator, substring search, ASCII case folding, and the
    decimal rendering .NET uses for `int.ToString()`. */
module Text {
  import opened Wrappers

  /** `parts` separated by single `sep` characters, with no leading or trailing
      separator. */
  function Join(parts: seq<string>, sep: char): string
  {
    if |parts| == 0 then ""
    else if |parts| == 1 then parts[0]
    else parts[0] + [sep] + Join(parts[1..], sep)
  }

  /** The position of the first `c` in `s`. */
  function IndexOf(s: string, c: char): (i: nat)
    requires c in s
    ensures i < |s| && s[i] == c
    ensures c !in s[..i]
  {
    if s[0] == c then 0
    else
      assert c in s[1..] by {
        var k :| 0 <= k < |s| && s[k] == c;
        assert s[1..][k - 1] == c;
      }
      var j := IndexOf(s[1..], c);
      assert s[..j + 1] == [s[0]] + s[1..][..j];
      j + 1
  }

  /** The pieces of `s` between occurrences of `sep`, always at least one. */
  function Split(s: string, sep: char): (r: seq<string>)
    ensures |r| > 0
    decreases |s|
  {
    if sep !in s then [s]
    else
      var i := IndexOf(s, sep);
      [s[..i]] + Split(s[i + 1..], sep)
  }

  predicate Free(parts: seq<string>, sep: char)
  {
    forall i :: 0 <= i < |parts| ==> sep !in parts[i]
  }

  /** Splitting undoes joining whenever no part holds the separator. */
  lemma {:induction false} SplitJoin(parts: seq<string>, sep: char)
    requires |parts| > 0 && Free(parts, sep)
    ensures Split(Join(parts, sep), sep) == parts
    decreases |parts|
  {
    if |parts| == 1 {
      assert Join(parts, sep) == parts[0];
    } else {
      var p := parts[0];
      var rest := Join(parts[1..], sep);
      var s := p + [sep] + rest;
      assert Join(parts, sep) == s;
      assert s[|p|] == sep;
      var i := IndexOf(s, sep);
      if i < |p| {
        assert false;
      } else if i > |p| {
        assert false;
      }
      assert s[..i] == p;
      assert s[i + 1..] == rest;
      SplitJoin(parts[1..], sep);
    }
  }

  /** A character found in no part and distinct from the separator is not in the
      joined text. */
  lemma {:induction false} JoinExcludes(parts: seq<string>, sep: char, c: char)
    requires c != sep && Free(parts, c)
    ensures c !in Join(parts, sep)
    decreases |parts|
  {
    if |parts| > 1 {
      JoinExcludes(parts[1..], sep, c);
      assert c !in parts[0];
    }
  }

  /** How many times `c` occurs in `s`. */
  function Count(s: string, c: char): nat
  {
    if |s| == 0 then 0
    else (if s[0] == c then 1 else 0) + Count(s[1..], c)
  }

  lemma {:induction false} CountConcat(a: string, b: string, c: char)
    ensures Count(a + b, c) == Count(a, c) + Count(b, c)
    decreases |a|
  {
    if |a| == 0 {
      assert a + b == b;
    } else {
      assert (a + b)[1..] == a[1..] + b;
      CountConcat(a[1..], b, c);
    }
  }

  lemma {:induction false} CountAbsent(s: string, c: char)
    requires c !in s
    ensures Count(s, c) == 0
    decreases |s|
  {
    if |s| > 0 {
      assert c !in s[1..] by {
        forall k | 0 <= k < |s[1..]| ensures s[1..][k] != c {
          assert s[1..][k] == s[k + 1];
        }
      }
      CountAbsent(s[1..], c);
    }
  }

  /** A joined list holds exactly one separator between each pair of neighbours. */
  lemma {:induction false} CountJoin(parts: seq<string>, sep: char)
    requires |parts| > 0 && Free(parts, sep)
    ensures Count(Join(parts, sep), sep) == |parts| - 1
    decreases |parts|
  {
    if |parts| == 1 {
      CountAbsent(parts[0], sep);
    } else {
      CountAbsent(parts[0], sep);
      CountJoin(parts[1..], sep);
      CountConcat(parts[0] + [sep], Join(parts[1..], sep), sep);
      CountConcat(parts[0], [sep], sep);
      assert Count([sep], sep) == 1 by {
        assert [sep][1..] == [];
      }
    }
  }

  /** `sub` occurs in `s` starting at position `i`. */
  predicate OccursAt(sub: string, s: string, i: nat)
  {
    i + |sub| <= |s| && s[i..i + |sub|] == sub
  }

  predicate IsSubstring(sub: string, s: string)
  {
    exists i: nat | i <= |s| :: OccursAt(sub, s, i)
  }

  lemma InMiddle(a: string, sub: string, b: string)
    ensures IsSubstring(sub, a + sub + b)
  {
    var s := a + sub + b;
    assert s[|a|..|a| + |sub|] == sub;
    assert OccursAt(sub, s, |a|);
  }

  /** Upper-case mapping of the ASCII letters; every other character is its own
      upper case. */
  function UpperAscii(c: char): char
  {
    if 'a' <= c <= 'z' then (c as int - 32) as char else c
  }

  /** Equality of two strings up to the case of ASCII letters. */
  predicate EqualsIgnoreCase(a: string, b: string)
  {
    |a| == |b| && forall i :: 0 <= i < |a| ==> UpperAscii(a[i]) == UpperAscii(b[i])
  }

  /** Every character of `s` upper-cased. */
  function UpperText(s: string): (r: string)
    ensures |r| == |s|
    ensures forall i :: 0 <= i < |s| ==> r[i] == UpperAscii(s[i])
  {
    if |s| == 0 then "" else [UpperAscii(s[0])] + UpperText(s[1..])
  }

  /** Comparing up to case is comparing the upper-cased texts. */
  lemma IgnoreCaseIsUpperEquality(a: string, b: string)
    ensures EqualsIgnoreCase(a, b) <==> UpperText(a) == UpperText(b)
  {
    if UpperText(a) == UpperText(b) {
      forall i | 0 <= i < |a| ensures UpperAscii(a[i]) == UpperAscii(b[i]) {
        assert UpperText(a)[i] == UpperText(b)[i];
      }
    }
  }

  /** Case-insensitive equality is an equivalence. */
  lemma IgnoreCaseEquivalence(a: string, b: string, c: string)
    ensures EqualsIgnoreCase(a, a)
    ensures EqualsIgnoreCase(a, b) ==> EqualsIgnoreCase(b, a)
    ensures EqualsIgnoreCase(a, b) && EqualsIgnoreCase(b, c) ==> EqualsIgnoreCase(a, c)
  {
  }

  predicate IsDigit(c: char)
  {
    '0' <= c <= '9'
  }

  predicate AllDigits(s: string)
  {
    forall i :: 0 <= i < |s| ==> IsDigit(s[i])
  }

  function DigitChar(d: nat): (c: char)
    requires d < 10
    ensures IsDigit(c)
  {
    ('0' as int + d) as char
  }

  function DigitValue(c: char): nat
    requires IsDigit(c)
  {
    c as int - '0' as int
  }

  /** The decimal digits of `n` without leading zeros. */
  function Digits(n: nat): (r: string)
    ensures |r| > 0 && AllDigits(r)
    ensures |r| > 1 ==> r[0] != '0'
    decreases n
  {
    if n < 10 then [DigitChar(n)] else Digits(n / 10) + [DigitChar(n % 10)]
  }

  /** `int.ToString()` under the invariant culture: an optional `-` and the digits. */
  function DecimalText(n: int): string
  {
    if n < 0 then "-" + Digits(-n) else Digits(n)
  }

  function ParseDigits(s: string): nat
    requires AllDigits(s)
  {
    if |s| == 0 then 0 else 10 * ParseDigits(s[..|s| - 1]) + DigitValue(s[|s| - 1])
  }

  /** Reads back a decimal integer; `None` for anything that is not one. */
  function ParseDecimal(s: string): Option<int>
  {
    if |s| > 1 && s[0] == '-' && AllDigits(s[1..]) then Some(-(ParseDigits(s[1..]) as int))
    else if |s| > 0 && AllDigits(s) then Some(ParseDigits(s))
    else None
  }

  lemma {:induction false} ParseDigitsOfDigits(n: nat)
    ensures ParseDigits(Digits(n)) == n
    decreases n
  {
    if n >= 10 {
      var s := Digits(n);
      assert s[..|s| - 1] == Digits(n / 10);
      ParseDigitsOfDigits(n / 10);
    }
  }

  /** Parsing the decimal rendering of an integer yields that integer. */
  lemma DecimalRoundTrip(n: int)
    ensures ParseDecimal(DecimalText(n)) == Some(n)
  {
    if n < 0 {
      var s := DecimalText(n);
      assert s[1..] == Digits(-n);
      ParseDigitsOfDigits(-n);
    } else {
      ParseDigitsOfDigits(n);
    }
  }

  /** Distinct integers have distinct renderings. */
  lemma DecimalInjective(m: int, n: int)
    requires DecimalText(m) == DecimalText(n)
    ensures m == n
  {
    DecimalRoundTrip(m);
    DecimalRoundTrip(n);
  }
}

=== FILE: time_interval.dfy ===
/** Points in time as .NET `DateTime` ticks, durations as `TimeSpan` ticks, and the
    `TimeInterval` parameter type built from them. */
module TimeIntervals {
  import opened Wrappers

  /** `DateTime.MaxValue.Ticks`: 23:59:59.9999999 on 31 December 9999. */
  const MaxTicks: int := 3155378975999999999

  /** A `DateTime`, as its count of 100-nanosecond ticks since 1 January 0001. */
  type DateTime = t: int | 0 <= t <= MaxTicks

  /** A `TimeSpan`, as a signed 64-bit count of ticks. */
  type TimeSpan = s: int | -0x8000_0000_0000_0000 <= s < 0x8000_0000_0000_0000

  /** The error `DateTime` arithmetic raises when its result leaves the range. */
  datatype TimeError = ArgumentOutOfRange

  /** `DateTime + TimeSpan`, which throws when the sum is not a valid `DateTime`. */
  function AddSpan(t: DateTime, span: TimeSpan): (r: Result<DateTime, TimeError>)
    ensures r.Success? <==> 0 <= t + span <= MaxTicks
    ensures r.Success? ==> r.value - t == span
  {
    if 0 <= t + span <= MaxTicks then Success(t + span) else Failure(ArgumentOutOfRange)
  }

  /** `DateTime - TimeSpan`, which throws when the difference is not a valid `DateTime`. */
  function SubtractSpan(t: DateTime, span: TimeSpan): (r: Result<DateTime, TimeError>)
    ensures r.Success? <==> 0 <= t - span <= MaxTicks
    ensures r.Success? ==> t - r.value == span
  {
    if 0 <= t - span <= MaxTicks then Success(t - span) else Failure(ArgumentOutOfRange)
  }

  /** `DateTime - DateTime`, which always fits a `TimeSpan`. */
  function Between(start: DateTime, end: DateTime): TimeSpan
  {
    end - start
  }

  /** A stretch of time from `startTime` to `endTime`; nothing orders the two. */
  datatype TimeInterval = TimeInterval(startTime: DateTime, endTime: DateTime)

  /** `TimeInterval(DateTime startTime, DateTime endTime)`. */
  function FromStartEnd(startTime: DateTime, endTime: DateTime): (r: TimeInterval)
    ensures r.startTime == startTime && r.endTime == endTime
  {
    TimeInterval(startTime, endTime)
  }

  /** `TimeInterval(DateTime startTime, TimeSpan timeSpan)`: starts at `startTime`
      and lasts `timeSpan`; fails when the end is not a valid `DateTime`. */
  function FromStartSpan(startTime: DateTime, timeSpan: TimeSpan): (r: Result<TimeInterval, TimeError>)
    ensures r.Success? <==> 0 <= startTime + timeSpan <= MaxTicks
    ensures r.Success? ==> r.value.startTime == startTime && GetTimeSpan(r.value) == timeSpan
  {
    var endTime :- AddSpan(startTime, timeSpan);
    Success(FromStartEnd(startTime, endTime))
  }

  /** `TimeInterval(TimeSpan timeSpan, DateTime endTime)`: lasts `timeSpan` and
      ends at `endTime`; fails when the start is not a valid `DateTime`. */
  function FromSpanEnd(timeSpan: TimeSpan, endTime: DateTime): (r: Result<TimeInterval, TimeError>)
    ensures r.Success? <==> 0 <= endTime - timeSpan <= MaxTicks
    ensures r.Success? ==> r.value.endTime == endTime && GetTimeSpan(r.value) == timeSpan
  {
    var startTime :- SubtractSpan(endTime, timeSpan);
    Success(FromStartEnd(startTime, endTime))
  }

  /** `Contains`: the moment lies between the two ends, both inclusive. */
  predicate Contains(ti: TimeInterval, moment: DateTime): (b: bool)
    ensures b ==> GetTimeSpan(ti) >= 0
    ensures ti.startTime == ti.endTime ==> (b <==> moment == ti.startTime)
  {
    moment >= ti.startTime && moment <= ti.endTime
  }

  /** `GetTimeSpan`: the end minus the start, negative for a reversed interval. */
  function GetTimeSpan(ti: TimeInterval): (r: TimeSpan)
    ensures ti.startTime + r == ti.endTime
  {
    Between(ti.startTime, ti.endTime)
  }

  /** A moment is contained exactly when its offset from the start lies between
      zero and the interval's duration. */
  lemma ContainsIffWithinSpan(ti: TimeInterval, moment: DateTime)
    ensures Contains(ti, moment) <==> 0 <= moment - ti.startTime <= GetTimeSpan(ti)
  {
  }

  /** An ordered interval contains both ends; a reversed one contains nothing. */
  lemma Endpoints(ti: TimeInterval, moment: DateTime)
    ensures ti.startTime <= ti.endTime <==> Contains(ti, ti.startTime) && Contains(ti, ti.endTime)
    ensures ti.startTime > ti.endTime ==> !Contains(ti, moment)
  {
  }

  /** Building from a start and a span, or from a span and an end, describes the
      same interval whenever both constructions succeed. */
  lemma ConstructionsAgree(startTime: DateTime, timeSpan: TimeSpan, endTime: DateTime)
    requires startTime + timeSpan == endTime
    ensures FromStartSpan(startTime, timeSpan) == Success(FromStartEnd(startTime, endTime))
    ensures FromSpanEnd(timeSpan, endTime) == Success(FromStartEnd(startTime, endTime))
  {
  }
}

=== FILE: wrappers.dfy ===
/** Failure-compatible Option and Result types used across the model in place of
    C#'s nullable values and thrown exceptions. */
module Wrappers {

  /** A possibly absent value: the model of a C# `T?` or a null reference. */
  datatype Option<+T> = None | Some(value: T) {

    predicate IsFailure() {
      None?
    }

    function PropagateFailure<U>(): Option<U>
      requires None?
    {
      None
    }

    function Extract(): T
      requires Some?
    {
      value
    }
  }

  /** Either a computed value or the exception that ended the computation. */
  datatype Result<+R, +E> = Success(value: R) | Failure(error: E) {

    predicate IsFailure() {
      Failure?
    }

    function PropagateFailure<U>(): Result<U, E>
      requires Failure?
    {
      Failure(error)
    }

    function Extract(): R
      requires Success?
    {
      value
    }
  }
}
